=== FILE: README.md ===
# CineSearch movie browser — model of the query and display core

This project models the logic core of a React front end that searches
movies through the OMDb API:

- **OMDb adapter** (`OmdbAdapter`, `src/services/movieService.ts`). A raw
  OMDb record becomes the app's `Movie`: a numeric id taken from the IMDb
  identifier, the poster rule, the rating doubled, the vote count without
  thousands separators, the runtime's leading integer, and genres split on
  commas and numbered by position. The module also builds the synthetic
  cast from `Actors`, the seven-digit IMDb identifier used for detail
  requests, and the poster URL.
- **Service queries** (`MovieService`). `searchMovies` covers the query
  parameters, the HTTP and `Response: "False"` cases, the client-side
  genre filter over the fixed genre table, and the total/page arithmetic.
  `getTrendingMovies` is the cycle of ten fixed search terms.
  `getMovieDetails` covers its error cases and the synthetic cast.
  `getGenres` and `getYearRange` complete the module.
- **Pagination** (`Pagination`, `src/components/Pagination.tsx`). The
  window of at most five numbered buttons, the first/previous/next/last
  buttons, and the page-1 and last-page shortcuts with their ellipses.
- **URL state** (`SearchResults` and `MovieFilters`). Query, page, year
  and genre are read from the URL search parameters. Page changes keep the
  filters; filter changes reset the page. The filter selects hold the
  values `"all"` or a number's text.
- **Details page** (`MovieDetails`). The `movie/:id` route reads its id
  back. The rating and runtime texts, the first twenty cast members and
  the favourite toggle are modelled.

JavaScript semantics the code relies on are written out explicitly
(`JsStrings`, `JsNumbers`):

- `parseInt` skips leading white space, reads an optional sign and the
  longest digit run, and gives NaN when there is no digit. NaN is a value
  of its own, `Num<T> = Num(value) | NaN`.
- `parseFloat` additionally reads a decimal fraction.
- `toString` is defined for integers.
- `%` truncates toward zero, and `Math.ceil` is applied to a quotient.
- `String.replace` with a string pattern replaces only the first match;
  `replace(/,/g, "")` removes every comma.
- `split(",")` and `trim` (with JavaScript's white-space set) are modelled,
  as are `padStart`, truthiness, and `a || b`.

The filter component copies the URL's year and genre into its own state
only when it mounts, and the results page stays mounted while a
navigation search or the browser history changes the URL. A filter pick
therefore writes the component's held value of the other filter, which can
differ from the URL's. The filter-pick lemmas take that held selection as
a parameter, and `SearchResults.StaleYearReturns` shows a year coming back
after a navigation search removed it.

The network, React state and the clock are replaced by parameters. An
HTTP reply is a status plus an optional decoded body; the current year is
an argument; `isFavorite` is a function argument.

## Model

| member | source | states |
|---|---|---|
| `OmdbAdapter.ConvertOmdbToMovie` | src/services/movieService.ts:78-95 | There is never a backdrop. The poster is dropped exactly when OMDb sent `"N/A"` and kept as sent otherwise. Id, runtime and vote count are 0 when their field is missing. Genres are empty exactly when `Genre` is missing, and are numbered 1, 2, … by position with trimmed, comma-free names. |
| `OmdbAdapter.IdOf` | src/services/movieService.ts:80 | A missing or empty identifier gives 0. An identifier starting with `tt` gives `parseInt` of the rest. |
| `OmdbAdapter.VoteAverageOf` | src/services/movieService.ts:87 | A missing or empty rating gives 0. Otherwise the result is NaN exactly when `parseFloat` is, and twice the parsed rating when it is not. |
| `OmdbAdapter.VoteCountOf` | src/services/movieService.ts:88 | A missing or empty count gives 0. A count without commas is parsed as it stands. |
| `OmdbAdapter.RuntimeOf` | src/services/movieService.ts:89 | A missing or empty runtime gives 0. A runtime starting with a digit gives the value of its leading digit run. |
| `OmdbAdapter.OrElse` | src/services/movieService.ts:82 | `x \|\| fallback` on a string: the field itself when present and non-empty, the fallback otherwise. |
| `OmdbAdapter.NamesOf` | src/services/movieService.ts:90-93 | A missing or empty list has no names. Every name is trimmed and contains no comma. |
| `OmdbAdapter.GenresOf` | src/services/movieService.ts:90-93 | One genre per name, in order, with id = position + 1. |
| `OmdbAdapter.NamesOfJoin` | src/services/movieService.ts:90-93 | Splitting a comma-joined list gives one name per part, each part trimmed; this is the split/trim round trip. |
| `OmdbAdapter.NamesOfList` | src/services/movieService.ts:90-93 | A list written in OMDb's `"A, B, C"` form reads back as exactly those names. |
| `OmdbAdapter.GenresOfList` | src/services/movieService.ts:90-93 | Converting a record whose `Genre` is such a list gives exactly `Genre(1, A), Genre(2, B), …`. |
| `OmdbAdapter.ListParts` | src/services/movieService.ts:90 | The comma pieces of OMDb's list form: the first name, then each further name after one blank. No piece holds a comma. |
| `OmdbAdapter.IdRoundTrip` | src/services/movieService.ts:179 | Any non-negative id, padded to an IMDb identifier for the detail request, converts back to the same id when OMDb echoes that identifier (line 80). |
| `OmdbAdapter.ImdbIdReversible` | src/services/movieService.ts:179 | Every identifier of `tt` and seven digits, leading zeros included, converts to an id (line 80) that formats back to the same identifier. |
| `OmdbAdapter.IdOfDigits` | src/services/movieService.ts:80 | `tt` followed by digits converts to the value of the digits. |
| `OmdbAdapter.FormatDigits` | src/services/movieService.ts:179 | The value of seven digits formats back to `tt` and those seven digits. |
| `OmdbAdapter.PaddedDigits` | src/services/movieService.ts:179 | A number below 10^k, zero-padded to k places, is k digits worth that number. |
| `OmdbAdapter.FormatImdbId` | src/services/movieService.ts:179 | The identifier starts with `tt` and holds at least seven characters after it. |
| `OmdbAdapter.FormatImdbIdWidth` | src/services/movieService.ts:179 | An id below ten million gives exactly `tt` plus seven digits. |
| `OmdbAdapter.NatToStringWidth` | src/services/movieService.ts:179 | A number below 10^k has at most k decimal digits, so padding to seven characters adds only zeros. |
| `OmdbAdapter.ImdbIdExample` | src/services/movieService.ts:179 | Id 123 formats as `"tt0000123"`, and `"tt0000123"` converts back to 123. |
| `OmdbAdapter.FormatImdbIdExample` | src/services/movieService.ts:179 | Id 123 formats as `"tt0000123"`. |
| `OmdbAdapter.ImageUrl` | src/services/movieService.ts:69-75 | A missing or empty path gives `/placeholder.svg`. Any other path, a full URL or not, is returned unchanged. |
| `OmdbAdapter.PosterUrl` | src/services/movieService.ts:83 | Through `getImageUrl`, the placeholder is shown exactly when the poster is missing, empty or `"N/A"`; otherwise the poster is shown as sent. |
| `OmdbAdapter.FakeCast` | src/services/movieService.ts:200-212 | One entry per actor name, in order, with id = position + 1, character `"Character <position + 1>"` and no profile image. The cast is empty exactly when `Actors` is missing. |
| `OmdbAdapter.FakeCastOfList` | src/services/movieService.ts:202-211 | An `Actors` list in OMDb's form yields exactly those actors, numbered 1, 2, … with matching character labels. |
| `OmdbAdapter.VoteCountOfGroups` | src/services/movieService.ts:88 | A vote count written with thousands separators (`"1,234,567"`) reads as the number its digit groups spell. |
| `OmdbAdapter.ConcatDigits` | src/services/movieService.ts:88 | Digit groups laid end to end are a non-empty digit string. |
| `OmdbAdapter.RuntimeLeading` | src/services/movieService.ts:89 | A runtime such as `"142 min"` converts to the number before the unit. |
| `OmdbAdapter.EmptyRecord` | src/services/movieService.ts:78-95 | A record with every field missing becomes id 0, empty texts, no images, rating 0, 0 votes, runtime 0 and no genres. |
| `MovieService.GenreIdsAscending` | src/services/movieService.ts:227-246 | The table has eighteen ids, listed in strictly ascending order, which is the order `Object.entries` gives integer keys. |
| `MovieService.GenreIdsAreKeys` | src/services/movieService.ts:227-246 | The listed ids are exactly the table's keys. |
| `MovieService.GenreAliasesLower` | src/services/movieService.ts:227-246 | Every genre has at least one alias, and every alias is lower case, as the lower-cased comparison at line 140 needs. |
| `MovieService.FilterValue` | src/services/movieService.ts:111 | A year or genre filter is active exactly when it is defined and truthy (not NaN, not 0); its value is then that non-zero number. |
| `MovieService.SearchParams` | src/services/movieService.ts:105-113 | Parameters `s` (the query), `type=movie` and `page` are always sent. `y` is sent exactly when the year filter is active. Nothing else is sent; in particular the genre never is. |
| `MovieService.SearchParamsReadBack` | src/services/movieService.ts:108-112 | The `page` text reads back as the requested page (NaN included), and the `y` text as the requested year. |
| `MovieService.SearchMovies` | src/services/movieService.ts:98-154 | A non-2xx status fails with `API error`. `Response: "False"` gives the requested page with no results and zero totals. Any success echoes the requested page. |
| `MovieService.SearchResultsShape` | src/services/movieService.ts:133-148 | On a normal reply the results are the converted records, in order. Without a genre filter that is all of them; with one, only matching movies remain. The totals are those of the reply. |
| `MovieService.TotalsIgnoreGenre` | src/services/movieService.ts:136-148 | The genre filter changes only the result list: totals and page count come from OMDb's count whatever the genre. |
| `MovieService.TotalResults` | src/services/movieService.ts:147 | The parsed `totalResults`, or 0 when it is missing or not a number. |
| `MovieService.TotalPages` | src/services/movieService.ts:148 | The smallest page count that holds the total at ten per page; 0 when the total is not a number. |
| `MovieService.PageCount` | src/services/movieService.ts:147-148 | For a non-negative total, there are no pages exactly when there are no results, and the last page holds between one and ten results. |
| `MovieService.KeepGenre` | src/services/movieService.ts:137-141 | The kept movies are a subsequence of the input. Every kept movie matches the genre, and every matching movie is kept. Each matching movie is kept as many times as it occurs, and a non-matching one never. |
| `MovieService.FilterByGenre` | src/services/movieService.ts:136-142 | Without an active genre the list is unchanged. With one, a movie stays exactly when one of its genre names, lower-cased, is an alias of that genre, and it stays as often as it occurs. |
| `MovieService.FilterRejects` | src/services/movieService.ts:138-139 | An id missing from the table keeps nothing, and a movie without genres is never kept. |
| `MovieService.SubsequenceRefl` | src/services/movieService.ts:142 | A list is a subsequence of itself, as the unfiltered path needs. |
| `MovieService.TrendingRequest` | src/services/movieService.ts:157-169 | Trending delegates to the search with the same page and no filters. From page 1 on, the term is one of the ten fixed terms. |
| `MovieService.TrendingIndex` | src/services/movieService.ts:166 | The index lies strictly between −10 and 10, is non-negative from page 1 on, and differs from `page − 1` by a multiple of ten. |
| `MovieService.TrendingTerm` | src/services/movieService.ts:166-167 | The term is one of the ten fixed terms or `"undefined"`; from page 1 on it is the fixed term at the index. |
| `MovieService.GetTrendingMovies` | src/services/movieService.ts:157-169 | A non-2xx status fails with `API error`, and a success echoes the requested page. A normal reply lists every converted record, in order and unfiltered. |
| `MovieService.TrendingCycle` | src/services/movieService.ts:166-167 | From page 1 on, the term index is `(page - 1) mod 10`, and pages ten apart search the same term. |
| `MovieService.TrendingBelowOne` | src/services/movieService.ts:166-167 | Below page 1, the truncating `%` gives a negative index unless `page - 1` is a multiple of ten, and the query is then the text `"undefined"`. |
| `MovieService.DetailParams` | src/services/movieService.ts:179-184 | Exactly the keys `i` and `plot=full` are sent. For a non-negative id, `i` converts back to that id. |
| `MovieService.GetMovieDetails` | src/services/movieService.ts:177-224 | A non-2xx status fails with `API error`. `Response: "False"` fails with `Movie not found` carrying OMDb's error text. A success always carries credits. |
| `MovieService.DetailsEchoId` | src/services/movieService.ts:179-212 | When OMDb echoes the requested identifier, the details carry the requested id, and their credits are the synthetic cast of `Actors`. |
| `MovieService.DetailsNotFoundMessage` | src/services/movieService.ts:194-196 | OMDb's `"Movie not found!"` reply fails with the message `Movie not found: Movie not found!`. |
| `MovieService.Message` | src/services/movieService.ts:117-119 | Only `API error` and `Movie not found` (line 195) carry a message. `API error: ` is followed by text that reads back as the status, and `Movie not found: ` by OMDb's error text, or `undefined` without one. |
| `MovieService.GetGenres` | src/services/movieService.ts:249-260 | One entry per table id, in `Object.entries` order. Each entry is named after the first alias of its id: the same length, the first letter upper-cased and the rest as in the alias. Lower-casing the name gives back the alias. |
| `MovieService.ListedGenre` | src/services/movieService.ts:252-255 | A listed genre keeps its id. Its name is the capitalised first alias, and it lower-cases back to that alias. |
| `MovieService.FirstAliases` | src/services/movieService.ts:252-254 | Every listed id is in the table with a lower-case first alias. |
| `MovieService.ListedGenreMatches` | src/services/movieService.ts:136-141 | A movie with a genre named like an entry of the genre list, in any letter case, passes the filter for that entry's id. |
| `MovieService.GetYearRange` | src/services/movieService.ts:263-270 | The years run from the current year down to 1900, one each. The list is empty when the current year is before 1900. |
| `Pagination.PageWindow` | src/components/Pagination.tsx:11-25 | The run lies within 1..total and holds at most five pages, and at least one when there is a page. For a current page in range it starts at max(1, min(current − 2, total − 4)) and ends at min(total, start + 4), so it contains the current page and holds min(5, total) pages. |
| `Pagination.PageNumbers` | src/components/Pagination.tsx:23-25 | Every page from start to end, once each, in order. |
| `Pagination.Render` | src/components/Pagination.tsx:27-101 | Nothing is rendered exactly when there are at most one page. Otherwise the numbered buttons are the window's pages, in order. |
| `Pagination.PagesContiguous` | src/components/Pagination.tsx:92-101 | The numbered buttons are consecutive pages within 1..total. |
| `Pagination.PagesCount` | src/components/Pagination.tsx:92-101 | There are at most five numbered buttons. For a current page in range there are min(5, total) of them, one of which is the highlighted current page. A button is highlighted exactly when it is the current page. |
| `Pagination.NavTargets` | src/components/Pagination.tsx:31-144 | From a page in range, previous and next move by one page when they can and never leave 1..total. Each of first/previous/next/last is disabled exactly when it would not move. |
| `Pagination.Shortcuts` | src/components/Pagination.tsx:77-116 | The page-1 button appears exactly when the run starts after page 1, with an ellipsis exactly when it starts after page 2; symmetrically for the last page. |
| `Pagination.ShownPagesCover` | src/components/Pagination.tsx:77-116 | The pages shown rise strictly from 1 to the last page. Every page not shown lies behind an ellipsis. |
| `Pagination.ShownPagesOrdered` | src/components/Pagination.tsx:77-116 | The pages shown begin at 1, end at the last page and rise strictly. |
| `Pagination.ShownPagesHidden` | src/components/Pagination.tsx:77-116 | A page that is not shown lies before the run behind the leading ellipsis, or after it behind the trailing one. |
| `Pagination.ShownPagesFormula` | src/components/Pagination.tsx:77-116 | The shown pages position by position: an optional 1, the run, then an optional last page. |
| `MovieFilters.Initial` | src/components/MovieFilters.tsx:16-17 | When the component mounts, the selects hold the filters passed in from the URL. |
| `MovieFilters.ParseSelect` | src/components/MovieFilters.tsx:36 | `"all"` means no filter; every other value is parsed as a number. |
| `MovieFilters.SelectValue` | src/components/MovieFilters.tsx:52 | The select shows `"all"` exactly when the filter is undefined. |
| `MovieFilters.SelectRoundTrip` | src/components/MovieFilters.tsx:52 | Reading back the value a select shows gives the filter it shows. |
| `MovieFilters.ParseSelectOfInt` | src/components/MovieFilters.tsx:62 | A number's text, chosen in a select, reads back as that number. |
| `MovieFilters.SelectShowsNumber` | src/components/MovieFilters.tsx:52 | A selected number shows as its own text. |
| `MovieFilters.NumberTexts` | src/components/MovieFilters.tsx:62 | Each option text is the number's `toString`, which is the select's value for that number and reads back as the number. |
| `MovieFilters.YearChange` | src/components/MovieFilters.tsx:35-39 | A year pick reports the picked year together with the genre held; the state becomes what was reported. |
| `MovieFilters.GenreChange` | src/components/MovieFilters.tsx:41-45 | A genre pick reports the picked genre together with the year held; the state becomes what was reported. |
| `MovieFilters.YearOptions` | src/components/MovieFilters.tsx:60-65 | The options are `"all"` followed by one option per year. Each option equals the select's value when that year is held, so the held year's option is the one shown selected, and it reads back as its year. |
| `MovieFilters.GenreOptions` | src/components/MovieFilters.tsx:81-86 | The options are `"all"` followed by one option per genre. Each option equals the select's value when that genre id is held, so the held genre's option is the one shown selected, and it reads back as its id. |
| `SearchResults.QueryOf` | src/pages/SearchResults.tsx:12 | The query is the `query` parameter, or empty when it is missing or empty. |
| `SearchResults.Defaults` | src/pages/SearchResults.tsx:22-24 | Without `page`, `year` and `genre` parameters, the page is 1 and neither filter is active. |
| `SearchResults.UrlStateRead` | src/pages/SearchResults.tsx:22-24 | A `page`, `year` or `genre` parameter holding an integer's text reads as that integer: the current page, or the year or genre filter. |
| `SearchResults.SearchFor` | src/pages/SearchResults.tsx:26-32 | A search is issued exactly when the query is non-empty. |
| `SearchResults.PageChange` | src/pages/SearchResults.tsx:50-55 | Only `page` is set, and it reads back as the chosen page. Every other parameter keeps its value, and query, year and genre read the same. |
| `SearchResults.SamePageless` | src/pages/SearchResults.tsx:12-24 | Parameter sets that differ only in `page` read the same query, year and genre. |
| `SearchResults.FilterChange` | src/pages/SearchResults.tsx:57-74 | `page` is dropped, so the page reads as 1. A year or genre parameter is present exactly when that filter is active. It then holds the value's `toString` and reads back as the value. Every other parameter is kept, and nothing else is added. |
| `SearchResults.ReadBackFilter` | src/pages/SearchResults.tsx:61-71 | A key present exactly for an active filter, and holding text that reads as its value, reads back as that filter. |
| `SearchResults.SetOrDelete` | src/pages/SearchResults.tsx:61-71 | An active filter sets its key to the value's `toString`, which reads back as the value. An inactive one deletes the key. No other key changes. |
| `SearchResults.DisplayedTotalPages` | src/pages/SearchResults.tsx:34 | The page count shown is the reported one capped at 500. |
| `SearchResults.PaginationWithinCap` | src/pages/SearchResults.tsx:34 | Every numbered page button lies within the reported page count and within 500; with at most one page nothing renders. |
| `SearchResults.PageButtonSearch` | src/pages/SearchResults.tsx:50-55 | Clicking a page button searches the same query and filters at that page. |
| `SearchResults.YearPickReachesUrl` | src/pages/SearchResults.tsx:57-74 | For any selection the component holds, picking a year puts it in the URL and resets to page 1. The query is kept, and the genre written is the one the component holds; it is the URL's own only when the two agreed before. Afterwards URL and component agree, and the select shows the year picked. |
| `SearchResults.AllYearsClearsUrl` | src/pages/SearchResults.tsx:57-74 | Picking `"all"` removes the year and the page from the URL, and the select shows `"all"`. The genre written is the one the component holds, the URL's own only when the two agreed before; afterwards they agree. |
| `SearchResults.GenrePickReachesUrl` | src/pages/SearchResults.tsx:57-74 | Picking a genre puts it in the URL and resets to page 1, keeping the query. The year written is the one the component holds, the URL's own only when the two agreed before; afterwards they agree. |
| `SearchResults.MountInSync` | src/components/MovieFilters.tsx:16-17 | At mount the component agrees with the URL, and a page change keeps that agreement. |
| `SearchResults.StaleYearReturns` | src/components/MovieFilters.tsx:16-17 | After `?query=a&year=2000` a navigation search to `?query=b` leaves the held year at 2000 while the URL has none. Picking genre 28 then writes year 2000 back into the URL. |
| `MovieDetails.LookupFor` | src/pages/MovieDetails.tsx:21-27 | A detail lookup happens exactly when the route has a non-empty id. |
| `MovieDetails.RouteRoundTrip` | src/pages/MovieDetails.tsx:27 | A movie id put in the `/movie/<id>` link reads back as the same id. The detail request built from it converts back to that id too. |
| `MovieDetails.Rating` | src/pages/MovieDetails.tsx:87-89 | `N/A` exactly when the stored rating is falsy (0 or NaN). Otherwise the shown score is half the stored one, back on OMDb's ten-point scale. |
| `MovieDetails.RatingRoundTrip` | src/pages/MovieDetails.tsx:87-89 | For a converted record, the rating shown is exactly OMDb's `imdbRating`; `N/A` is shown exactly when that is missing, not a number, or 0. |
| `MovieDetails.NotAvailableRating` | src/services/movieService.ts:87 | OMDb's `"N/A"` rating parses as NaN, and therefore shows as `N/A`. |
| `MovieDetails.Runtime` | src/pages/MovieDetails.tsx:91-93 | `Unknown` exactly when the runtime is falsy. A positive runtime splits into whole hours and 0..59 minutes. |
| `MovieDetails.NegativeRuntime` | src/pages/MovieDetails.tsx:92 | A negative runtime that is not a whole number of hours shows one hour less than it is, because `Math.floor` and the truncating `%` disagree on sign. |
| `MovieDetails.RuntimeFromOmdb` | src/pages/MovieDetails.tsx:91-93 | An OMDb runtime `"<n> min"` with n > 0 shows as n div 60 hours and n mod 60 minutes. |
| `MovieDetails.ShownCast` | src/pages/MovieDetails.tsx:95 | No credits shows no cast. Otherwise the first twenty cast members are shown, in order. |
| `MovieDetails.ShownCastOfList` | src/pages/MovieDetails.tsx:239 | For details whose `Actors` is a list in OMDb's form, the page shows the first twenty of those actors, in order, numbered from 1. |
| `MovieDetails.FavoriteToggle` | src/pages/MovieDetails.tsx:44-58 | Nothing happens without a movie. A favourite movie is removed by its id; any other movie is added whole. |
| `JsNumbers.ParseIntLeading` | src/services/movieService.ts:89 | `parseInt` of a digit run followed by non-digits is the value of the digits. |
| `JsNumbers.ParseIntNaN` | src/pages/SearchResults.tsx:22 | `parseInt` is NaN exactly when no digit follows the leading white space and sign. A negative result comes only from a minus sign. |
| `JsNumbers.ParseFloatNaN` | src/services/movieService.ts:87 | `parseFloat` is NaN exactly when there is no digit before the point and none right after it. A negative result comes only from a minus sign. |
| `JsNumbers.ParseFloatDecimal` | src/services/movieService.ts:87 | `parseFloat("d1.d2")` is the value of d1 plus the value of d2 divided by 10^|d2|. |
| `JsNumbers.ParseFloatUnsigned` | src/services/movieService.ts:87 | Text starting with a digit or a point parses as its leading digits, the point and the digits after it. |
| `JsNumbers.DecimalValue` | src/services/movieService.ts:87 | The value of `whole.frac` lies in [whole, whole + 1). |
| `JsNumbers.DigitsValueBound` | src/services/movieService.ts:179 | A k-digit string is worth less than 10^k. |
| `JsNumbers.DigitsInjective` | src/services/movieService.ts:179 | Two digit strings of the same length and value are equal. |
| `JsNumbers.ParseIntToString` | src/pages/SearchResults.tsx:22 | `parseInt` reads back every integer's `toString`, negative ones included. |
| `JsNumbers.ParseNumToString` | src/services/movieService.ts:108 | `parseInt(page.toString())` is `page`; NaN prints as `"NaN"` and parses back to NaN. |
| `JsNumbers.ParseIntZeroPadded` | src/services/movieService.ts:80 | Leading zeros do not change what `parseInt` reads. |
| `JsNumbers.NatToString` | src/services/movieService.ts:179 | A number's decimal text: digits only, worth the number, and starting with `0` only when it is exactly `"0"`. |
| `JsNumbers.IntToString` | src/services/movieService.ts:108 | Non-negative numbers print as their digits, with a leading `0` only in `"0"`. Negative ones print as `-` and the digits of their magnitude, which never start with `0`. |
| `JsNumbers.JsRem` | src/services/movieService.ts:166 | JavaScript's `%`: dividend = divisor × truncated quotient + remainder, with the remainder carrying the dividend's sign. |
| `JsNumbers.CeilDiv` | src/services/movieService.ts:148 | `Math.ceil(a / d)` is the least q with a ≤ d·q. |
| `JsStrings.Trim` | src/services/movieService.ts:92 | `trim()` gives a contiguous slice of the string that is empty or starts and ends with a non-white-space character. Everything cut off before and after it is JavaScript white space. |
| `JsStrings.TrimOfTrimmed` | src/services/movieService.ts:92 | A string without surrounding white space is returned unchanged. |
| `JsStrings.TrimIdempotent` | src/services/movieService.ts:92 | Trimming twice is trimming once. |
| `JsStrings.Split` | src/services/movieService.ts:90 | `split(",")` gives at least one piece, and no piece contains a comma. |
| `JsStrings.JoinSplit` | src/services/movieService.ts:90 | Joining the pieces of a split with the separator gives back the string. |
| `JsStrings.SplitJoin` | src/services/movieService.ts:90 | Splitting a join of separator-free pieces gives back the pieces. |
| `JsStrings.IndexOfFrom` | src/services/movieService.ts:80 | The first position at or after a start where a pattern occurs, or none when it does not occur there. |
| `JsStrings.StripPrefix` | src/services/movieService.ts:80 | Replacing the first occurrence of a pattern in `pattern + rest` with the empty string leaves `rest`, as `replace("tt", "")` does to an IMDb identifier. |
| `JsStrings.RemoveAll` | src/services/movieService.ts:88 | `replace(/,/g, "")` leaves no comma, never lengthens the string, and changes nothing without a comma. |
| `JsStrings.RemoveAllJoin` | src/services/movieService.ts:88 | Removing the commas of a comma-joined list concatenates its pieces. |
| `JsStrings.PadStart` | src/services/movieService.ts:179 | `padStart` keeps the string as its suffix and puts just enough fill characters in front to reach the length; it never shortens. |
| `JsStrings.ToLower` | src/services/movieService.ts:140 | Lower-casing keeps the length and turns each upper-case letter into the lower-case letter 32 code points above it. Every other character is left as it is. |
| `JsStrings.Capitalize` | src/services/movieService.ts:254 | Only the first character changes: a lower-case letter becomes the upper-case letter 32 code points below it, and the rest is unchanged. |
| `JsStrings.LowerCapitalize` | src/services/movieService.ts:254 | Lower-casing a capitalised lower-case word gives back the word. |

## Left out

- The network: `fetch`, `createApiUrl`, the API key and URL encoding are not modelled. Each request is given as its parameter map, and the reply as an HTTP status plus a decoded body.
- JSON decoding: every OMDb field is modelled as an optional string. A field of another JSON type is not modelled.
- `parseFloat`: exponents, `Infinity` and floating-point rounding are not modelled. Ratings are exact reals.
- `MovieDetails.Rating`: the text of `toFixed(1)`, rounded to one decimal place, is not modelled; the contract gives the exact half-rating instead of its rounded text.
- The release year shown on the details page (`new Date(...).getFullYear()`) is left out, because date parsing is outside the model.
- `MovieService.GetYearRange`: takes the current year as a parameter instead of reading the clock.
- Favourites: the favourites store, its persistence and the favourites page sort are not modelled. `MovieDetails.FavoriteToggle` takes `isFavorite` as a function and returns the action to take.
- React: state, effects, loading flags, toasts, scrolling and all markup are left out. Only the values the components compute from their inputs are modelled.
- The other pages and components (home, trending page, favourites page, navigation bar, search bar, layout and movie card) are not part of this model, apart from the `movie/<id>` route and link that `MovieDetails.RouteRoundTrip` covers.
- Case mapping: `toLowerCase` and `toUpperCase` are modelled on ASCII letters only. Full Unicode case mapping is left out.
- URL search parameters: these are modelled as a map with one value per key. Repeated keys and their ordering are left out.
- Pagination with a NaN current page: `Pagination.Render` takes an integer current page. A `page` parameter that does not parse is outside the pagination lemmas, which require a parsed page.
- `genre_ids`: the adapter never sets it, so it is not part of `Movie`.
- `JsNumbers.IntToString`: JavaScript numbers are doubles, and `toString` prints exponent form from 10^21 on; the model prints every integer in plain digits. It stands for integers of magnitude below 2^53.
- `JsNumbers.ParseIntToString`: above 2^53 `parseInt` rounds to the nearest double. The round trip is proved for unbounded integers and holds in JavaScript only below 2^53.
- `JsNumbers.ParseNumToString`: the same bound as `JsNumbers.ParseIntToString` applies.
- `OmdbAdapter.IdRoundTrip`: holds in JavaScript for ids below 2^53 only, for the same reason; the same holds for `MovieDetails.RouteRoundTrip`, `MovieService.SearchParamsReadBack`, `SearchResults.PageChange`, `SearchResults.UrlStateRead` and `SearchResults.FilterChange`.
- `MovieService.Message`: gives text only for the two errors the service throws itself (`API error` and `Movie not found`). A rejected `response.json()` is `InvalidJson`, and a reply without a `Search` list is `MissingSearch`; neither has a message. A failing `fetch` is not modelled.

=== FILE: js_numbers.dfy ===
/** JavaScript numbers as the front end produces and consumes them:
    `parseInt(s, 10)`, `parseFloat(s)`, `Number.prototype.toString`, the
    truncating `%`, `Math.ceil` of a quotient, and truthiness. */
module JsNumbers {
  import opened JsStrings

  /** A JavaScript number: a value of the model's numeric type, or NaN
      (the result of parsing text that holds no number). Integers parsed with
      `parseInt` are `Num<int>`; ratings parsed with `parseFloat` are
      `Num<real>`. Infinities never arise here and are not modelled. */
  datatype Num<T> = Num(value: T) | NaN

  /** JavaScript truthiness of an integer: neither NaN nor zero. */
  predicate Truthy(n: Num<int>) {
    n.Num? && n.value != 0
  }

  /** JavaScript truthiness of a real-valued number. */
  predicate TruthyReal(n: Num<real>) {
    n.Num? && n.value != 0.0
  }

  predicate IsDigit(c: char) { '0' <= c <= '9' }

  predicate IsDigits(s: string) {
    forall k :: 0 <= k < |s| ==> IsDigit(s[k])
  }

  function DigitValue(c: char): (d: nat)
    requires IsDigit(c)
    ensures d < 10
  {
    c as int - '0' as int
  }

  function DigitChar(d: nat): (c: char)
    requires d < 10
    ensures IsDigit(c) && DigitValue(c) == d
  {
    ('0' as int + d) as char
  }

  /** The value of a decimal digit string, most significant digit first. */
  function DigitsValue(s: string): nat
    requires IsDigits(s)
  {
    if s == [] then 0 else DigitsValue(s[..|s| - 1]) * 10 + DigitValue(s[|s| - 1])
  }

  /** The decimal text of a natural number: digits only, no leading zero,
      and reading it back gives the number. */
  function NatToString(n: nat): (r: string)
    ensures |r| >= 1 && IsDigits(r)
    ensures DigitsValue(r) == n
    ensures r[0] == '0' ==> n == 0 && r == "0"
  {
    if n < 10 then [DigitChar(n)]
    else
      var r := NatToString(n / 10) + [DigitChar(n % 10)];
      assert r[..|r| - 1] == NatToString(n / 10);
      r
  }

  /** `n.toString()` for an integer. */
  function IntToString(n: int): (r: string)
    ensures |r| >= 1
    ensures n >= 0 ==> IsDigits(r) && DigitsValue(r) == n
    ensures n < 0 ==> r[0] == '-' && IsDigits(r[1..]) && DigitsValue(r[1..]) == -n
    ensures n >= 0 ==> (r[0] == '0' ==> r == "0")
    ensures n < 0 ==> |r| >= 2 && r[1] != '0'
  {
    if n < 0 then "-" + NatToString(-n) else NatToString(n)
  }

  /** `x.toString()` for a parsed integer; NaN prints as `"NaN"`. */
  function NumToString(x: Num<int>): (r: string)
    ensures |r| >= 1
  {
    match x
    case Num(n) => IntToString(n)
    case NaN => "NaN"
  }

  /** The longest prefix of `s` made of decimal digits. */
  function LeadingDigits(s: string): (r: string)
    ensures IsDigits(r) && |r| <= |s| && r == s[..|r|]
    ensures |r| < |s| ==> !IsDigit(s[|r|])
  {
    if s != [] && IsDigit(s[0]) then [s[0]] + LeadingDigits(s[1..]) else []
  }

  /** `s` without the sign character it may start with. */
  function DropSign(s: string): string {
    if s != [] && (s[0] == '-' || s[0] == '+') then s[1..] else s
  }

  /** `parseInt(s, 10)`: leading white space is skipped, then an optional
      sign, then the longest run of decimal digits is read; anything after
      it is ignored. Without a digit the result is NaN. */
  function ParseInt(s: string): Num<int>
  {
    var t := TrimStart(s);
    var d := LeadingDigits(DropSign(t));
    if d == [] then NaN
    else
      var v: int := DigitsValue(d);
      if t[0] == '-' then Num(-v) else Num(v)
  }

  /** `parseInt` is NaN exactly when no digit follows the white space and
      the sign; a negative result needs a minus sign. */
  lemma ParseIntNaN(s: string)
    ensures ParseInt(s).NaN? <==> (var u := DropSign(TrimStart(s)); u == [] || !IsDigit(u[0]))
    ensures ParseInt(s).Num? ==> TrimStart(s) != [] && (ParseInt(s).value < 0 ==> TrimStart(s)[0] == '-')
  {
  }

  /** A string that starts with a digit or a sign has no white space to
      skip. */
  lemma TrimStartOfNumber(s: string)
    requires s != [] && (IsDigit(s[0]) || s[0] == '-' || s[0] == '+')
    ensures TrimStart(s) == s
  {
    assert !IsSpace(s[0]);
  }

  lemma {:induction false} LeadingDigitsOfDigits(d: string, rest: string)
    requires IsDigits(d)
    requires rest == [] || !IsDigit(rest[0])
    ensures LeadingDigits(d + rest) == d
  {
    if d != [] {
      assert (d + rest)[1..] == d[1..] + rest;
      LeadingDigitsOfDigits(d[1..], rest);
      assert [d[0]] + d[1..] == d;
    } else {
      assert d + rest == rest;
    }
  }

  /** `parseInt` reads the leading unsigned decimal integer of a string, so
      `"142 min"` parses as 142. */
  lemma ParseIntLeading(d: string, rest: string)
    requires |d| >= 1 && IsDigits(d)
    requires rest == [] || !IsDigit(rest[0])
    ensures ParseInt(d + rest) == Num(DigitsValue(d))
  {
    var s := d + rest;
    assert s[0] == d[0];
    ParseIntUnsigned(s);
    LeadingDigitsOfDigits(d, rest);
  }

  /** Text that starts with a digit parses as its leading digit run. */
  lemma ParseIntUnsigned(s: string)
    requires s != [] && IsDigit(s[0])
    ensures LeadingDigits(s) != []
    ensures ParseInt(s) == Num(DigitsValue(LeadingDigits(s)))
  {
    TrimStartOfNumber(s);
    assert DropSign(s) == s;
  }

  /** Leading zeros do not change a digit string's value. */
  lemma {:induction false} DigitsValueLeadingZero(s: string)
    requires IsDigits(s)
    ensures IsDigits("0" + s) && DigitsValue("0" + s) == DigitsValue(s)
  {
    if s != [] {
      var t := "0" + s;
      assert t[..|t| - 1] == "0" + s[..|s| - 1];
      DigitsValueLeadingZero(s[..|s| - 1]);
    }
  }

  lemma {:induction false} DigitsValueZeros(z: nat, s: string)
    requires IsDigits(s)
    ensures IsDigits(seq(z, _ => '0') + s)
    ensures DigitsValue(seq(z, _ => '0') + s) == DigitsValue(s)
  {
    if z > 0 {
      DigitsValueZeros(z - 1, s);
      var t := seq(z - 1, _ => '0') + s;
      DigitsValueLeadingZero(t);
      assert seq(z, _ => '0') + s == "0" + t;
    } else {
      assert seq(z, _ => '0') + s == s;
    }
  }

  /** `parseInt` reads back what `toString` printed, for every integer. */
  lemma ParseIntToString(n: int)
    ensures ParseInt(IntToString(n)) == Num(n)
  {
    var s := IntToString(n);
    if n < 0 {
      var d := NatToString(-n);
      assert s == "-" + d;
      TrimStartOfNumber(s);
      assert DropSign(s) == d;
      LeadingDigitsOfDigits(d, []);
      assert d + [] == d;
      assert ParseInt(s).value == 0 - DigitsValue(d) as int;
    } else {
      ParseIntLeading(s, []);
      assert s + [] == s;
    }
  }

  /** ... and for every parsed number, NaN included. */
  lemma ParseNumToString(x: Num<int>)
    ensures ParseInt(NumToString(x)) == x
  {
    if x.Num? {
      ParseIntToString(x.value);
    } else {
      assert LeadingDigits("NaN") == [];
    }
  }

  /** `parseInt` ignores any number of leading zeros. */
  lemma ParseIntZeroPadded(z: nat, n: nat)
    ensures ParseInt(seq(z, _ => '0') + NatToString(n)) == Num(n)
  {
    var s := seq(z, _ => '0') + NatToString(n);
    DigitsValueZeros(z, NatToString(n));
    ParseIntLeading(s, []);
    assert s + [] == s;
  }

  /** `parseFloat(s)`: leading white space, an optional sign, digits, and an
      optional `.` followed by digits; NaN when neither side of the point
      holds a digit. Exponents and `"Infinity"` are not modelled. */
  function ParseFloat(s: string): Num<real>
  {
    var t := TrimStart(s);
    var u := DropSign(t);
    var whole := LeadingDigits(u);
    var rest := u[|whole|..];
    var frac := if rest != [] && rest[0] == '.' then LeadingDigits(rest[1..]) else [];
    if whole == [] && frac == [] then NaN
    else
      var v := DecimalValue(whole, frac);
      if t[0] == '-' then Num(-v) else Num(v)
  }

  /** The value of the decimal `whole.frac`: the whole part plus a fraction
      below one. */
  function DecimalValue(whole: string, frac: string): (v: real)
    requires IsDigits(whole) && IsDigits(frac)
    ensures DigitsValue(whole) as real <= v < DigitsValue(whole) as real + 1.0
  {
    var f := DigitsValue(frac) as real;
    var p := Pow10(|frac|) as real;
    DigitsValueBound(frac);
    FractionBelowOne(f, p);
    DigitsValue(whole) as real + f / p
  }

  lemma FractionBelowOne(f: real, p: real)
    requires 0.0 <= f < p
    ensures 0.0 <= f / p < 1.0
  {
    assert f / p * p == f;
  }

  /** `parseFloat` is NaN exactly when there is no digit before the point
      and none right after it; a negative result needs a minus sign. */
  lemma ParseFloatNaN(s: string)
    ensures ParseFloat(s).NaN? <==> (var u := DropSign(TrimStart(s));
      && (u == [] || !IsDigit(u[0]))
      && !(|u| >= 2 && u[0] == '.' && IsDigit(u[1])))
    ensures ParseFloat(s).Num? ==> TrimStart(s) != [] && (ParseFloat(s).value < 0.0 ==> TrimStart(s)[0] == '-')
  {
  }

  /** A decimal number `d1.d2` parses as its exact value. */
  lemma ParseFloatDecimal(d1: string, d2: string)
    requires IsDigits(d1) && IsDigits(d2) && |d1| + |d2| >= 1
    ensures ParseFloat(d1 + "." + d2) == Num(DecimalValue(d1, d2))
  {
    var rest := "." + d2;
    var s := d1 + rest;
    assert s == d1 + "." + d2;
    assert s[0] == if d1 == [] then '.' else d1[0];
    assert LeadingDigits(s) == d1 && s[|d1|..] == rest by {
      LeadingDigitsOfDigits(d1, rest);
    }
    assert LeadingDigits(rest[1..]) == d2 by {
      assert rest[1..] == d2 + [];
      LeadingDigitsOfDigits(d2, []);
    }
    ParseFloatUnsigned(s, d1, d2);
  }

  /** Text that starts with a digit or a point parses as its leading
      digits, the point, and the digits after it. */
  lemma ParseFloatUnsigned(s: string, whole: string, frac: string)
    requires s != [] && (IsDigit(s[0]) || s[0] == '.')
    requires LeadingDigits(s) == whole && |whole| < |s| && s[|whole|] == '.'
    requires LeadingDigits(s[|whole| + 1..]) == frac && |whole| + |frac| >= 1
    ensures ParseFloat(s) == Num(DecimalValue(whole, frac))
  {
    assert !IsSpace(s[0]);
    assert TrimStart(s) == s && DropSign(s) == s;
    assert s[|whole|..][1..] == s[|whole| + 1..];
  }

  /** A digit string is worth less than ten to the power of its length. */
  lemma {:induction false} DigitsValueBound(s: string)
    requires IsDigits(s)
    ensures DigitsValue(s) < Pow10(|s|)
  {
    if s != [] {
      DigitsValueBound(s[..|s| - 1]);
    }
  }

  /** Digit strings of one length with one value are the same string. */
  lemma {:induction false} DigitsInjective(a: string, b: string)
    requires IsDigits(a) && IsDigits(b) && |a| == |b|
    requires DigitsValue(a) == DigitsValue(b)
    ensures a == b
  {
    if a != [] {
      var n := |a| - 1;
      assert DigitValue(a[n]) == DigitValue(b[n]);
      DigitsInjective(a[..n], b[..n]);
      assert a == a[..n] + [a[n]];
      assert b == b[..n] + [b[n]];
    }
  }

  function Pow10(k: nat): (p: nat)
    ensures p >= 1
  {
    if k == 0 then 1 else 10 * Pow10(k - 1)
  }

  /** JavaScript's `a % b` for a positive divisor: the remainder takes the
      sign of the dividend (truncating division), unlike Dafny's `%`. */
  function JsRem(a: int, b: int): (r: int)
    requires b > 0
    ensures a == b * JsQuot(a, b) + r
    ensures a >= 0 ==> 0 <= r < b
    ensures a < 0 ==> -b < r <= 0
  {
    if a >= 0 then a % b
    else
      var q := (-a) / b;
      assert -a == b * q + (-a) % b;
      assert b * (-q) == -(b * q);
      -((-a) % b)
  }

  /** The quotient of JavaScript's truncating division, `Math.trunc(a / b)`. */
  function JsQuot(a: int, b: int): int
    requires b > 0
  {
    if a >= 0 then a / b else -((-a) / b)
  }

  /** `Math.ceil(a / d)` for an integer `a` and a positive divisor. */
  function CeilDiv(a: int, d: int): (q: int)
    requires d > 0
    ensures d * (q - 1) < a <= d * q
  {
    -((-a) / d)
  }
}

=== FILE: js_strings.dfy ===
/** The JavaScript string built-ins the front end relies on: `trim`,
    `split` on a one-character separator, `replace` with a string pattern,
    a global one-character `replace`, `padStart`, and ASCII case mapping.
    Strings are sequences of UTF-16-agnostic `char`s. */
module JsStrings {
  import opened Wrappers

  /** JavaScript's WhiteSpace and LineTerminator characters, which `trim`
      and `parseInt` skip (the Zs category as of Unicode 15). */
  predicate IsSpace(c: char) {
    || c == ' ' || c == '\t' || c == '\n' || c == '\r'
    || c == '\U{B}' || c == '\U{C}' || c == '\U{A0}' || c == '\U{FEFF}'
    || c == '\U{1680}' || ('\U{2000}' <= c <= '\U{200A}')
    || c == '\U{2028}' || c == '\U{2029}' || c == '\U{202F}'
    || c == '\U{205F}' || c == '\U{3000}'
  }

  /** `s` with its leading white space removed. */
  function TrimStart(s: string): (r: string)
    ensures |r| <= |s| && r == s[|s| - |r|..]
    ensures forall k :: 0 <= k < |s| - |r| ==> IsSpace(s[k])
    ensures r == [] || !IsSpace(r[0])
  {
    if s != [] && IsSpace(s[0]) then TrimStart(s[1..]) else s
  }

  /** `s` with its trailing white space removed. */
  function TrimEnd(s: string): (r: string)
    ensures |r| <= |s| && r == s[..|r|]
    ensures forall k :: |r| <= k < |s| ==> IsSpace(s[k])
    ensures r == [] || !IsSpace(r[|r| - 1])
  {
    if s != [] && IsSpace(s[|s| - 1]) then TrimEnd(s[..|s| - 1]) else s
  }

  /** `String.prototype.trim`. */
  function Trim(s: string): (r: string)
    ensures r == [] || (!IsSpace(r[0]) && !IsSpace(r[|r| - 1]))
    ensures var a := |s| - |TrimStart(s)|;
      && a + |r| <= |s|
      && r == s[a..a + |r|]
      && (forall k :: 0 <= k < a ==> IsSpace(s[k]))
      && (forall k :: a + |r| <= k < |s| ==> IsSpace(s[k]))
  {
    TrimEnd(TrimStart(s))
  }

  /** A string that `trim` leaves alone. */
  predicate IsTrimmed(s: string) {
    s == [] || (!IsSpace(s[0]) && !IsSpace(s[|s| - 1]))
  }

  lemma TrimOfTrimmed(s: string)
    requires IsTrimmed(s)
    ensures Trim(s) == s
  {
  }

  /** Trimming is idempotent. */
  lemma TrimIdempotent(s: string)
    ensures Trim(Trim(s)) == Trim(s)
  {
    TrimOfTrimmed(Trim(s));
  }

  /** Leading white space never changes what `trim` returns. */
  lemma {:induction false} TrimSkipsLeadingSpace(c: char, s: string)
    requires IsSpace(c)
    ensures Trim([c] + s) == Trim(s)
  {
    assert ([c] + s)[1..] == s;
  }

  /** `parts` joined with the separator `c` between neighbours
      (`Array.prototype.join`). */
  function Join(parts: seq<string>, c: char): string
    requires |parts| >= 1
  {
    if |parts| == 1 then parts[0] else parts[0] + [c] + Join(parts[1..], c)
  }

  /** `s.split(c)` for a one-character separator: the maximal pieces between
      separators, always at least one. */
  function Split(s: string, c: char): (r: seq<string>)
    ensures |r| >= 1
    ensures forall i :: 0 <= i < |r| ==> c !in r[i]
  {
    if s == [] then [[]]
    else
      var rest := Split(s[1..], c);
      if s[0] == c then [[]] + rest
      else [[s[0]] + rest[0]] + rest[1..]
  }

  /** Joining the pieces of a split gives back the original string. */
  lemma {:induction false} JoinSplit(s: string, c: char)
    ensures Join(Split(s, c), c) == s
  {
    if s != [] {
      var rest := Split(s[1..], c);
      JoinSplit(s[1..], c);
      if s[0] == c {
        assert Split(s, c)[1..] == rest;
      } else {
        var r := Split(s, c);
        assert r[1..] == rest[1..];
        if |rest| == 1 {
          assert Join(r, c) == [s[0]] + rest[0];
        } else {
          assert Join(r, c) == [s[0]] + rest[0] + [c] + Join(rest[1..], c);
        }
      }
    }
  }

  /** Splitting a join of separator-free pieces gives back the pieces. */
  lemma {:induction false} SplitJoin(parts: seq<string>, c: char)
    requires |parts| >= 1
    requires forall i :: 0 <= i < |parts| ==> c !in parts[i]
    ensures Split(Join(parts, c), c) == parts
  {
    if |parts| == 1 {
      SplitFree(parts[0], c);
    } else {
      SplitJoin(parts[1..], c);
      SplitPrefix(parts[0], Join(parts[1..], c), c);
      assert [parts[0]] + parts[1..] == parts;
    }
  }

  /** A string without the separator splits into itself. */
  lemma {:induction false} SplitFree(s: string, c: char)
    requires c !in s
    ensures Split(s, c) == [s]
  {
    if s != [] {
      SplitFree(s[1..], c);
      assert [s[0]] + s[1..] == s;
    }
  }

  /** A separator-free head followed by the separator is split off as the
      first piece. */
  lemma {:induction false} SplitPrefix(a: string, b: string, c: char)
    requires c !in a
    ensures Split(a + [c] + b, c) == [a] + Split(b, c)
  {
    if a == [] {
      assert a + [c] + b == [c] + b;
      assert ([c] + b)[1..] == b;
    } else {
      assert (a + [c] + b)[1..] == a[1..] + [c] + b;
      SplitPrefix(a[1..], b, c);
      assert [a[0]] + a[1..] == a;
    }
  }

  /** `pat` occurs in `s` starting at position `k`. */
  predicate MatchAt(s: string, pat: string, k: nat) {
    k + |pat| <= |s| && s[k..k + |pat|] == pat
  }

  /** The position of the first occurrence of `pat` in `s` at or after `from`
      (`String.prototype.indexOf`). */
  function IndexOfFrom(s: string, pat: string, from: nat): (r: Option<nat>)
    requires from <= |s|
    ensures r.Some? ==> from <= r.value && MatchAt(s, pat, r.value)
    ensures r.Some? ==> forall k: nat :: from <= k < r.value ==> !MatchAt(s, pat, k)
    ensures r.None? ==> forall k: nat :: from <= k ==> !MatchAt(s, pat, k)
    decreases |s| - from
  {
    if from + |pat| > |s| then None
    else if s[from..from + |pat|] == pat then Some(from)
    else IndexOfFrom(s, pat, from + 1)
  }

  /** `s.replace(pat, rep)` with a string pattern: only the FIRST occurrence
      is replaced, wherever it is; without one, `s` is returned unchanged. */
  function ReplaceFirst(s: string, pat: string, rep: string): string
  {
    match IndexOfFrom(s, pat, 0)
    case None => s
    case Some(i) => s[..i] + rep + s[i + |pat|..]
  }

  /** Replacing the first occurrence of a prefix strips that prefix. */
  lemma StripPrefix(pat: string, rest: string)
    ensures ReplaceFirst(pat + rest, pat, []) == rest
  {
    assert MatchAt(pat + rest, pat, 0);
  }

  /** `s.replace(/c/g, '')`: every occurrence of `c` removed. */
  function RemoveAll(s: string, c: char): (r: string)
    ensures c !in r
    ensures |r| <= |s|
    ensures c !in s ==> r == s
  {
    if s == [] then []
    else if s[0] == c then RemoveAll(s[1..], c)
    else [s[0]] + RemoveAll(s[1..], c)
  }

  /** The pieces laid end to end. */
  function Concat(parts: seq<string>): string {
    if parts == [] then [] else parts[0] + Concat(parts[1..])
  }

  lemma {:induction false} RemoveAllAppend(a: string, b: string, c: char)
    ensures RemoveAll(a + b, c) == RemoveAll(a, c) + RemoveAll(b, c)
  {
    if a != [] {
      assert (a + b)[1..] == a[1..] + b;
      RemoveAllAppend(a[1..], b, c);
    } else {
      assert a + b == b;
    }
  }

  /** Removing the separator from a join of separator-free pieces lays the
      pieces end to end: `"1,234,567"` becomes `"1234567"`. */
  lemma {:induction false} RemoveAllJoin(parts: seq<string>, c: char)
    requires |parts| >= 1
    requires forall i :: 0 <= i < |parts| ==> c !in parts[i]
    ensures RemoveAll(Join(parts, c), c) == Concat(parts)
  {
    if |parts| == 1 {
      assert Concat(parts) == parts[0] + Concat([]);
    } else {
      RemoveAllJoin(parts[1..], c);
      RemoveAllAppend(parts[0], [c] + Join(parts[1..], c), c);
      RemoveAllAppend([c], Join(parts[1..], c), c);
      assert parts[0] + [c] + Join(parts[1..], c) == parts[0] + ([c] + Join(parts[1..], c));
    }
  }

  /** `s.padStart(len, fill)` for a one-character filler. */
  function PadStart(s: string, len: nat, fill: char): (r: string)
    ensures |r| == if |s| >= len then |s| else len
    ensures r[|r| - |s|..] == s
    ensures forall k :: 0 <= k < |r| - |s| ==> r[k] == fill
  {
    if |s| >= len then s else seq(len - |s|, _ => fill) + s
  }

  predicate IsUpper(c: char) { 'A' <= c <= 'Z' }
  predicate IsLower(c: char) { 'a' <= c <= 'z' }

  function CharToLower(c: char): (r: char)
    ensures !IsUpper(r)
    ensures IsUpper(c) ==> IsLower(r) && r as int == c as int + 32
    ensures !IsUpper(c) ==> r == c
  {
    if IsUpper(c) then (c as int + 32) as char else c
  }

  function CharToUpper(c: char): (r: char)
    ensures !IsLower(r)
    ensures IsLower(c) ==> IsUpper(r) && r as int == c as int - 32
    ensures !IsLower(c) ==> r == c
  {
    if IsLower(c) then (c as int - 32) as char else c
  }

  /** `toLowerCase`, restricted to the ASCII letters. */
  function ToLower(s: string): (r: string)
    ensures |r| == |s|
    ensures forall k :: 0 <= k < |r| ==> !IsUpper(r[k])
    ensures forall k :: 0 <= k < |r| ==>
      if IsUpper(s[k]) then IsLower(r[k]) && r[k] as int == s[k] as int + 32 else r[k] == s[k]
  {
    seq(|s|, k requires 0 <= k < |s| => CharToLower(s[k]))
  }

  /** A string without upper-case ASCII letters. */
  predicate NoUpper(s: string) {
    forall k :: 0 <= k < |s| ==> !IsUpper(s[k])
  }

  /** `s.charAt(0).toUpperCase() + s.slice(1)`. */
  function Capitalize(s: string): (r: string)
    ensures |r| == |s|
    ensures |s| > 0 ==> !IsLower(r[0]) && r[1..] == s[1..]
    ensures |s| > 0 ==>
      if IsLower(s[0]) then IsUpper(r[0]) && r[0] as int == s[0] as int - 32 else r[0] == s[0]
  {
    if s == [] then [] else [CharToUpper(s[0])] + s[1..]
  }

  /** Lower-casing a capitalised lower-case word gives the word back. */
  lemma LowerCapitalize(s: string)
    requires NoUpper(s)
    ensures ToLower(Capitalize(s)) == s
  {
    if s != [] {
      var r := ToLower(Capitalize(s));
      assert r[0] == s[0];
      assert forall k :: 1 <= k < |s| ==> r[k] == s[k];
    }
  }
}

=== FILE: movie_details.dfy ===
/** The `MovieDetails` page's display rules: the route id it looks up, the
    rating and runtime texts, the truncated cast list, and the decision the
    favourite button takes. The favourites store itself is not part of this
    model: whether a movie is a favourite is a given predicate. */
module MovieDetails {
  import opened Wrappers
  import opened JsStrings
  import opened JsNumbers
  import opened OmdbAdapter
  import opened MovieService

  /** At most twenty cast members are shown. */
  const MaxCastShown: int := 20

  /** The lookup issued for the `:id` route parameter; none without one. */
  function LookupFor(idParam: Option<string>): (r: Option<Num<int>>)
    ensures r.None? <==> !Present(idParam)
  {
    if Present(idParam) then Some(ParseInt(idParam.value)) else None
  }

  /** A movie link `/movie/<id>` leads to a detail request for that very
      movie: the id survives the route, and the IMDb identifier requested
      converts back to it. */
  lemma RouteRoundTrip(n: nat)
    ensures LookupFor(Some(IntToString(n))) == Some(Num(n as int))
    ensures IdOf(Some(DetailParams(Num(n))["i"])) == Num(n)
  {
    ParseIntToString(n);
  }

  /** The rating shown: half the stored rating (the OMDb value), or "N/A". */
  datatype RatingText = Score(outOfTen: real) | RatingNA

  function Rating(voteAverage: Num<real>): (r: RatingText)
    ensures r.RatingNA? <==> !TruthyReal(voteAverage)
    ensures r.Score? ==> r.outOfTen * 2.0 == voteAverage.value
  {
    if TruthyReal(voteAverage) then Score(voteAverage.value / 2.0) else RatingNA
  }

  /** Rating round trip: the adapter doubles the OMDb rating and the page
      halves it again, so the page shows exactly OMDb's rating; it shows
      "N/A" when OMDb sent none, `"N/A"`, or zero. */
  lemma RatingRoundTrip(rec: OmdbRecord)
    ensures Rating(ConvertOmdbToMovie(rec).voteAverage) == RatingNA <==>
      !Present(rec.imdbRating) || ParseFloat(rec.imdbRating.value).NaN? || ParseFloat(rec.imdbRating.value).value == 0.0
    ensures Present(rec.imdbRating) && ParseFloat(rec.imdbRating.value).Num? && ParseFloat(rec.imdbRating.value).value != 0.0 ==>
      Rating(ConvertOmdbToMovie(rec).voteAverage) == Score(ParseFloat(rec.imdbRating.value).value)
  {
  }

  /** OMDb's sentinel parses as NaN, so a rating of "N/A" shows as "N/A". */
  lemma NotAvailableRating()
    ensures ParseFloat(NotAvailable).NaN?
  {
    assert TrimStart(NotAvailable) == NotAvailable;
    assert LeadingDigits(NotAvailable) == [];
  }

  /** The runtime shown: hours and minutes, or "Unknown". */
  datatype RuntimeText = HoursMinutes(hours: int, minutes: int) | RuntimeUnknown

  /** `Math.floor(r / 60)` hours and `r % 60` minutes for a truthy runtime. */
  function Runtime(runtime: Num<int>): (r: RuntimeText)
    ensures r.RuntimeUnknown? <==> !Truthy(runtime)
    ensures r.HoursMinutes? && runtime.value > 0 ==>
      r.hours * 60 + r.minutes == runtime.value && 0 <= r.minutes < 60 && r.hours >= 0
  {
    if Truthy(runtime) then HoursMinutes(runtime.value / 60, JsRem(runtime.value, 60))
    else RuntimeUnknown
  }

  /** A negative runtime mixes a flooring hour count with a truncating minute
      count: unless it is a whole number of hours, the text shown is an hour
      short of it. OMDb runtimes are never negative. */
  lemma NegativeRuntime(r: int)
    requires r < 0 && r % 60 != 0
    ensures Runtime(Num(r)).hours * 60 + Runtime(Num(r)).minutes == r - 60
  {
    var q := r / 60;
    var m := r % 60;
    assert r == 60 * q + m;
    assert -r == 60 * (-q - 1) + (60 - m);
    assert (-r) % 60 == 60 - m;
  }

  /** OMDb's `"142 min"` shows as 2h 22m: the leading integer of the runtime
      text split into hours and minutes. */
  lemma RuntimeFromOmdb(rec: OmdbRecord, d: string, unit: string)
    requires |d| >= 1 && IsDigits(d) && DigitsValue(d) > 0
    requires unit == [] || !IsDigit(unit[0])
    requires rec.runtime == Some(d + unit)
    ensures Runtime(ConvertOmdbToMovie(rec).runtime) == HoursMinutes(DigitsValue(d) / 60, DigitsValue(d) % 60)
  {
    RuntimeLeading(d, unit);
  }

  /** The cast shown: the first twenty entries in their order; none when the
      reply carries no credits. */
  function ShownCast(credits: Option<seq<CastMember>>): (r: seq<CastMember>)
    ensures credits.None? ==> r == []
    ensures credits.Some? ==> |r| == (if |credits.value| < MaxCastShown then |credits.value| else MaxCastShown)
    ensures credits.Some? ==> r == credits.value[..|r|]
  {
    var cast := credits.GetOr([]);
    if |cast| <= MaxCastShown then cast else cast[..MaxCastShown]
  }

  /** The cast a detail page shows for OMDb's actor list: the first twenty
      names, numbered and labelled as the adapter numbers them. */
  lemma ShownCastOfList(movieId: Num<int>, reply: HttpReply<DetailBody>, names: seq<string>)
    requires IsOk(reply.status) && reply.body.Some? && reply.body.value.response != Some("False")
    requires |names| >= 1 && names[0] != ""
    requires forall i :: 0 <= i < |names| ==> ',' !in names[i] && IsTrimmed(names[i])
    requires reply.body.value.record.actors == Some(Join(ListParts(names), ','))
    ensures var shown := ShownCast(GetMovieDetails(movieId, reply).value.credits);
      && |shown| == (if |names| < MaxCastShown then |names| else MaxCastShown)
      && forall i :: 0 <= i < |shown| ==> shown[i].name == names[i] && shown[i].id == i + 1
  {
    FakeCastOfList(reply.body.value.record.actors, names);
  }

  /** What the favourite button does. */
  datatype ToggleAction =
    | NoAction                                  // no movie loaded yet
    | RemoveFavorite(id: Num<int>)              // `removeFavorite(movie.id)`
    | AddFavorite(movie: MovieDetailsResponse)  // `addFavorite(movie)`

  /** `handleFavoriteToggle`, with the store's `isFavorite` as a parameter:
      a favourite is removed by id, any other movie is added. */
  function FavoriteToggle(movie: Option<MovieDetailsResponse>, isFavorite: Num<int> -> bool): (a: ToggleAction)
    ensures a.NoAction? <==> movie.None?
    ensures a.RemoveFavorite? <==> movie.Some? && isFavorite(movie.value.movie.id)
    ensures a.AddFavorite? <==> movie.Some? && !isFavorite(movie.value.movie.id)
    ensures a.RemoveFavorite? ==> a.id == movie.value.movie.id
    ensures a.AddFavorite? ==> a.movie == movie.value
  {
    match movie
    case None => NoAction
    case Some(m) => if isFavorite(m.movie.id) then RemoveFavorite(m.movie.id) else AddFavorite(m)
  }
}

=== FILE: movie_filters.dfy ===
/** The `MovieFilters` component: the year and genre selects, the `"all"`
    entry that stands for "no filter", and what each change reports to the
    page that hosts the component. */
module MovieFilters {
  import opened Wrappers
  import opened JsNumbers
  import opened OmdbAdapter

  /** The select entry that means "no filter". */
  const AllValue: string := "all"

  /** The component's state and the object it reports on a change: a year
      and a genre id, each `undefined` (`None`) when unset. */
  datatype Filters = Filters(year: Option<Num<int>>, genreId: Option<Num<int>>)

  /** The state after a change, and what `onFilterChange` receives. */
  datatype Change = Change(state: Filters, reported: Filters)

  /** The initial state comes from the component's props. */
  function Initial(initialYear: Option<Num<int>>, initialGenreId: Option<Num<int>>): (s: Filters)
    ensures s.year == initialYear && s.genreId == initialGenreId
  {
    Filters(initialYear, initialGenreId)
  }

  /** A select value as a filter: `"all"` is none, anything else is parsed. */
  function ParseSelect(value: string): (r: Option<Num<int>>)
    ensures r.None? <==> value == AllValue
  {
    if value == AllValue then None else Some(ParseInt(value))
  }

  /** The value a select shows: `x?.toString() || "all"`. */
  function SelectValue(x: Option<Num<int>>): (v: string)
    ensures v == AllValue <==> x.None?
  {
    match x
    case None => AllValue
    case Some(n) =>
      var t := NumToString(n);
      assert t[0] != 'a';
      if t == "" then AllValue else t
  }

  /** What a select shows reads back as the filter it shows. */
  lemma SelectRoundTrip(x: Option<Num<int>>)
    ensures ParseSelect(SelectValue(x)) == x
  {
    if x.Some? {
      ParseNumToString(x.value);
    }
  }

  /** `handleYearChange`: the new year, with the current genre unchanged; the
      report and the new state agree. */
  function YearChange(s: Filters, value: string): (c: Change)
    ensures c.reported.year == ParseSelect(value)
    ensures c.reported.genreId == s.genreId
    ensures c.state == c.reported
  {
    var selected := ParseSelect(value);
    Change(s.(year := selected), Filters(selected, s.genreId))
  }

  /** `handleGenreChange`: the new genre, with the current year unchanged. */
  function GenreChange(s: Filters, value: string): (c: Change)
    ensures c.reported.genreId == ParseSelect(value)
    ensures c.reported.year == s.year
    ensures c.state == c.reported
  {
    var selected := ParseSelect(value);
    Change(s.(genreId := selected), Filters(s.year, selected))
  }

  /** The text of a number selects that number. */
  lemma ParseSelectOfInt(n: int)
    ensures ParseSelect(IntToString(n)) == Some(Num(n))
  {
    var t := IntToString(n);
    assert t[0] != 'a';
    assert t != AllValue;
    ParseIntToString(n);
  }

  /** A selected number shows as its own text. */
  lemma SelectShowsNumber(n: int)
    ensures SelectValue(Some(Num(n))) == IntToString(n)
  {
    assert NumToString(Num(n)) == IntToString(n);
  }

  /** The values of the year select: `"all"`, then each year as text. A
      held year is the select's value, so its option is the one shown as
      selected. */
  function YearOptions(years: seq<int>): (r: seq<string>)
    ensures |r| == |years| + 1 && r[0] == AllValue
    ensures forall i :: 0 <= i < |years| ==> ParseSelect(r[i + 1]) == Some(Num(years[i]))
    ensures forall i :: 0 <= i < |years| ==> r[i + 1] == SelectValue(Some(Num(years[i])))
  {
    var texts := NumberTexts(years);
    AfterAll(texts);
    [AllValue] + texts
  }

  /** Each number as the text of its select option: its `toString`, which
      is also the select's value for that number and reads back as it. */
  function NumberTexts(ns: seq<int>): (r: seq<string>)
    ensures |r| == |ns|
    ensures forall i :: 0 <= i < |ns| ==> r[i] == IntToString(ns[i])
    ensures forall i :: 0 <= i < |ns| ==> r[i] == SelectValue(Some(Num(ns[i])))
    ensures forall i :: 0 <= i < |ns| ==> ParseSelect(r[i]) == Some(Num(ns[i]))
  {
    var r := seq(|ns|, i requires 0 <= i < |ns| => IntToString(ns[i]));
    forall i | 0 <= i < |ns|
      ensures r[i] == SelectValue(Some(Num(ns[i]))) && ParseSelect(r[i]) == Some(Num(ns[i]))
    {
      SelectShowsNumber(ns[i]);
      ParseSelectOfInt(ns[i]);
    }
    r
  }

  /** The values of the genre select: `"all"`, then each genre id as text.
      A held genre id is the select's value, so its option is the one shown
      as selected. */
  function GenreOptions(genres: seq<Genre>): (r: seq<string>)
    ensures |r| == |genres| + 1 && r[0] == AllValue
    ensures forall i :: 0 <= i < |genres| ==> ParseSelect(r[i + 1]) == Some(Num(genres[i].id))
    ensures forall i :: 0 <= i < |genres| ==> r[i + 1] == SelectValue(Some(Num(genres[i].id)))
  {
    YearOptions(IdsOf(genres))
  }

  /** The ids of the genres, in order. */
  function IdsOf(genres: seq<Genre>): (ids: seq<int>)
    ensures |ids| == |genres|
    ensures forall i :: 0 <= i < |genres| ==> ids[i] == genres[i].id
  {
    seq(|genres|, i requires 0 <= i < |genres| => genres[i].id)
  }

  /** Behind the leading `"all"` entry, the options keep their positions
      shifted by one. */
  lemma AfterAll(texts: seq<string>)
    ensures forall i :: 0 <= i < |texts| ==> ([AllValue] + texts)[i + 1] == texts[i]
  {
  }
}

=== FILE: movie_service.dfy ===
/** The query side of `movieService.ts`: the search request, the reading of
    OMDb's search and detail replies, the client-side genre filter over the
    fixed genre table, the page-count arithmetic, the simulated trending
    list, the genre list and the year range. The network call itself is
    replaced by the reply it produces, given as a parameter. */
module MovieService {
  import opened Wrappers
  import opened JsStrings
  import opened JsNumbers
  import opened OmdbAdapter

  /** OMDb returns ten results per page. */
  const PageSize: int := 10

  /** GENRE_MAP: filter genre id to the lower-case OMDb genre names it
      accepts. */
  const GenreMap: map<int, seq<string>> := map[
    28 := ["action"],
    12 := ["adventure"],
    16 := ["animation"],
    35 := ["comedy"],
    80 := ["crime"],
    99 := ["documentary"],
    18 := ["drama"],
    10751 := ["family"],
    14 := ["fantasy"],
    36 := ["history"],
    27 := ["horror"],
    10402 := ["music"],
    9648 := ["mystery"],
    10749 := ["romance"],
    878 := ["sci-fi", "science fiction"],
    53 := ["thriller"],
    10752 := ["war"],
    37 := ["western"]]

  /** The keys of GENRE_MAP in the order `Object.entries` lists them:
      integer-like keys come out in ascending numeric order, not in the order
      the table is written. */
  const GenreIds: seq<int> :=
    [12, 14, 16, 18, 27, 28, 35, 36, 37, 53, 80, 99, 878, 9648, 10402, 10749, 10751, 10752]

  /** The trending simulation's fixed search terms, one per page modulo ten. */
  const PopularSearches: seq<string> := [
    "marvel", "star wars", "harry potter", "lord of the rings",
    "jurassic", "fast furious", "mission impossible", "batman",
    "spider-man", "avengers"]

  /** The genre table's ids, listed once each in ascending order. */
  lemma GenreIdsAscending()
    ensures |GenreIds| == 18
    ensures forall i, j :: 0 <= i < j < |GenreIds| ==> GenreIds[i] < GenreIds[j]
  {
  }

  /** `GenreIds` lists exactly the keys of the table. */
  lemma GenreIdsAreKeys()
    ensures forall id :: id in GenreMap <==> id in GenreIds
  {
  }

  /** Every id has at least one alias, and every alias is lower case. */
  lemma GenreAliasesLower()
    ensures forall id :: id in GenreMap ==> |GenreMap[id]| >= 1
    ensures forall id, a :: id in GenreMap && a in GenreMap[id] ==> NoUpper(a)
  {
    AliasesPresent();
    AliasesLower();
  }

  lemma AliasesPresent()
    ensures forall id :: id in GenreMap ==> |GenreMap[id]| >= 1
  {
  }

  lemma AliasesLower()
    ensures forall id, a :: id in GenreMap && a in GenreMap[id] ==> NoUpper(a)
  {
  }

  // ---------------------------------------------------------------------
  // Requests

  /** One call of `searchMovies(query, page, year, genreId)`. The page, year
      and genre are JavaScript numbers (NaN possible); year and genre may be
      `undefined` (`None`). */
  datatype SearchRequest = SearchRequest(
    query: string,
    page: Num<int>,
    year: Option<Num<int>>,
    genreId: Option<Num<int>>)

  /** The filter an optional number denotes under JavaScript truthiness:
      `undefined`, NaN and 0 all mean "no filter". */
  function FilterValue(x: Option<Num<int>>): (r: Option<int>)
    ensures r.Some? <==> x.Some? && Truthy(x.value)
    ensures r.Some? ==> r.value != 0 && x == Some(Num(r.value))
  {
    if x.Some? && Truthy(x.value) then Some(x.value.value) else None
  }

  /** The query parameters `searchMovies` sends (the API key and the URL
      encoding added by `createApiUrl` aside). */
  function SearchParams(req: SearchRequest): (p: map<string, string>)
    ensures p.Keys == if FilterValue(req.year).Some? then {"s", "type", "page", "y"} else {"s", "type", "page"}
    ensures p["s"] == req.query && p["type"] == "movie"
  {
    var base := map["s" := req.query, "type" := "movie", "page" := NumToString(req.page)];
    if FilterValue(req.year).Some? then base["y" := IntToString(FilterValue(req.year).value)] else base
  }

  /** The page and year sent read back as the requested page and year
      filter. */
  lemma SearchParamsReadBack(req: SearchRequest)
    ensures ParseInt(SearchParams(req)["page"]) == req.page
    ensures "y" in SearchParams(req) ==> ParseInt(SearchParams(req)["y"]) == Num(FilterValue(req.year).value)
  {
    PageParamReadBack(req);
    if "y" in SearchParams(req) {
      YearKey(req);
      YearParamReadBack(req);
    }
  }

  /** The year key is sent only for a year filter. */
  lemma YearKey(req: SearchRequest)
    ensures "y" in SearchParams(req) ==> FilterValue(req.year).Some?
  {
    assert "y" !in {"s", "type", "page"};
  }

  lemma PageParamReadBack(req: SearchRequest)
    ensures ParseInt(SearchParams(req)["page"]) == req.page
  {
    assert SearchParams(req)["page"] == NumToString(req.page);
    ParseNumToString(req.page);
  }

  lemma YearParamReadBack(req: SearchRequest)
    requires FilterValue(req.year).Some?
    ensures ParseInt(SearchParams(req)["y"]) == Num(FilterValue(req.year).value)
  {
    var y := FilterValue(req.year).value;
    assert SearchParams(req)["y"] == IntToString(y);
    ParseIntToString(y);
  }

  // ---------------------------------------------------------------------
  // Replies

  /** The JSON body of an OMDb search reply. */
  datatype SearchBody = SearchBody(
    response: Option<string>,
    search: Option<seq<OmdbRecord>>,
    totalResults: Option<string>,
    error: Option<string>)

  /** The JSON body of an OMDb detail reply: the record's fields plus
      `Response` and `Error`. */
  datatype DetailBody = DetailBody(
    response: Option<string>,
    error: Option<string>,
    record: OmdbRecord)

  /** What `fetch` delivers: the HTTP status and the body, `None` when the
      body is not JSON. */
  datatype HttpReply<B> = HttpReply(status: int, body: Option<B>)

  /** Why a service call throws. */
  datatype ServiceError =
    | ApiError(status: int)              // the HTTP status was not 2xx
    | InvalidJson                        // `response.json()` rejected the body
    | MissingSearch                      // a non-"False" reply without a `Search` list
    | MovieNotFound(error: Option<string>)  // a detail reply with `Response: "False"`

  /** The message the service puts into the errors it throws itself. */
  function Message(e: ServiceError): (m: Option<string>)
    ensures m.Some? <==> e.ApiError? || e.MovieNotFound?
    ensures e.ApiError? ==>
      && |m.value| > |ApiErrorText|
      && m.value[..|ApiErrorText|] == ApiErrorText
      && ParseInt(m.value[|ApiErrorText|..]) == Num(e.status)
    ensures e.MovieNotFound? ==>
      && |m.value| >= |NotFoundText|
      && m.value[..|NotFoundText|] == NotFoundText
      && m.value[|NotFoundText|..] == e.error.GetOr("undefined")
  {
    match e
    case ApiError(status) =>
      var text := IntToString(status);
      ParseIntToString(status);
      assert (ApiErrorText + text)[|ApiErrorText|..] == text;
      Some(ApiErrorText + text)
    case MovieNotFound(err) => Some(NotFoundText + err.GetOr("undefined"))
    case _ => None
  }

  const ApiErrorText: string := "API error: "
  const NotFoundText: string := "Movie not found: "

  /** `response.ok`: a status in 200..299. */
  predicate IsOk(status: int) {
    200 <= status <= 299
  }

  /** The reply page of `searchMovies`. */
  datatype SearchMoviesResponse = SearchMoviesResponse(
    page: Num<int>,
    results: seq<Movie>,
    totalResults: int,
    totalPages: int)

  /** `parseInt(data.totalResults, 10)`; a missing field is `undefined`,
      which parses as NaN. */
  function ParsedTotal(total: Option<string>): Num<int> {
    match total
    case None => NaN
    case Some(t) => ParseInt(t)
  }

  /** `parseInt(totalResults) || 0`. */
  function TotalResults(total: Option<string>): (n: int)
    ensures ParsedTotal(total).Num? ==> n == ParsedTotal(total).value
    ensures ParsedTotal(total).NaN? ==> n == 0
  {
    var p := ParsedTotal(total);
    if Truthy(p) then p.value else 0
  }

  /** `Math.ceil(parseInt(totalResults) / 10) || 0`. */
  function TotalPages(total: Option<string>): (n: int)
    ensures ParsedTotal(total).NaN? ==> n == 0
    ensures ParsedTotal(total).Num? ==> PageSize * (n - 1) < TotalResults(total) <= PageSize * n
  {
    var p := ParsedTotal(total);
    if p.NaN? then 0 else CeilDiv(p.value, PageSize)
  }

  /** The pages hold every result and no page is empty: for a non-negative
      total, `total_pages` is zero exactly when `total_results` is, and
      otherwise the last page holds between one and ten results. */
  lemma PageCount(total: Option<string>)
    requires ParsedTotal(total).Num? && ParsedTotal(total).value >= 0
    ensures TotalPages(total) >= 0
    ensures TotalPages(total) == 0 <==> TotalResults(total) == 0
    ensures TotalPages(total) > 0 ==>
      1 <= TotalResults(total) - PageSize * (TotalPages(total) - 1) <= PageSize
  {
  }

  // ---------------------------------------------------------------------
  // The genre filter

  /** `a` is an order-preserving subsequence of `b`. */
  ghost predicate IsSubsequence<T>(a: seq<T>, b: seq<T>)
    decreases |b|
  {
    a == [] || (b != [] && ((a[0] == b[0] && IsSubsequence(a[1..], b[1..])) || IsSubsequence(a, b[1..])))
  }

  /** A movie is of filter genre `g` when one of its genre names, lower-cased,
      is an alias of `g` in the genre table. */
  predicate MatchesGenre(m: Movie, g: int) {
    g in GenreMap && exists k :: 0 <= k < |m.genres| && ToLower(m.genres[k].name) in GenreMap[g]
  }

  /** The movies of `movies` that are of genre `g`, in their original order. */
  function KeepGenre(movies: seq<Movie>, g: int): (r: seq<Movie>)
    ensures IsSubsequence(r, movies)
    ensures forall m :: m in r ==> MatchesGenre(m, g)
    ensures forall m :: m in movies && MatchesGenre(m, g) ==> m in r
    ensures forall m :: multiset(r)[m] == if MatchesGenre(m, g) then multiset(movies)[m] else 0
  {
    if movies == [] then []
    else
      var rest := KeepGenre(movies[1..], g);
      assert movies == [movies[0]] + movies[1..];
      assert multiset(movies) == multiset{movies[0]} + multiset(movies[1..]);
      if MatchesGenre(movies[0], g) then
        var r := [movies[0]] + rest;
        assert r[1..] == rest;
        r
      else
        assert rest == [] || rest[0] != movies[0];
        rest
  }

  /** The filter step of `searchMovies`: without a (truthy) genre id the
      results pass unchanged. */
  function FilterByGenre(movies: seq<Movie>, genreId: Option<Num<int>>): (r: seq<Movie>)
    ensures FilterValue(genreId).None? ==> r == movies
    ensures IsSubsequence(r, movies)
    ensures FilterValue(genreId).Some? ==>
      forall m :: m in movies ==> (m in r <==> MatchesGenre(m, FilterValue(genreId).value))
    ensures FilterValue(genreId).Some? ==>
      forall m :: multiset(r)[m] == if MatchesGenre(m, FilterValue(genreId).value) then multiset(movies)[m] else 0
  {
    match FilterValue(genreId)
    case None => SubsequenceRefl(movies); movies
    case Some(g) => KeepGenre(movies, g)
  }

  lemma {:induction false} SubsequenceRefl<T>(s: seq<T>)
    ensures IsSubsequence(s, s)
  {
    if s != [] {
      SubsequenceRefl(s[1..]);
    }
  }

  /** An id outside the genre table filters every movie out, and an active
      filter drops every movie without genres. */
  lemma FilterRejects(movies: seq<Movie>, genreId: Option<Num<int>>)
    requires FilterValue(genreId).Some?
    ensures FilterValue(genreId).value !in GenreMap ==> FilterByGenre(movies, genreId) == []
    ensures forall m :: m in FilterByGenre(movies, genreId) ==> |m.genres| > 0
  {
    var r := FilterByGenre(movies, genreId);
    assert forall i :: 0 <= i < |r| ==> r[i] in r;
  }

  // ---------------------------------------------------------------------
  // searchMovies

  /** `searchMovies`: a transport failure or an unreadable body throws; a
      "False" reply is an empty page; otherwise the records are converted,
      filtered by genre, and the totals are taken from OMDb's unfiltered
      count. */
  function SearchMovies(req: SearchRequest, reply: HttpReply<SearchBody>): (r: Result<SearchMoviesResponse, ServiceError>)
    ensures !IsOk(reply.status) ==> r == Failure(ApiError(reply.status))
    ensures IsOk(reply.status) && reply.body.Some? && reply.body.value.response == Some("False") ==>
      r == Success(SearchMoviesResponse(req.page, [], 0, 0))
    ensures r.Success? ==> r.value.page == req.page
  {
    if !IsOk(reply.status) then Failure(ApiError(reply.status))
    else if reply.body.None? then Failure(InvalidJson)
    else
      var data := reply.body.value;
      if data.response == Some("False") then
        Success(SearchMoviesResponse(req.page, [], 0, 0))
      else if data.search.None? then Failure(MissingSearch)
      else
        var records := data.search.value;
        var results := seq(|records|, i requires 0 <= i < |records| => ConvertOmdbToMovie(records[i]));
        Success(SearchMoviesResponse(
          req.page,
          FilterByGenre(results, req.genreId),
          TotalResults(data.totalResults),
          TotalPages(data.totalResults)))
  }

  /** A successful search: the results are the converted records, or an
      order-preserving selection of them under a genre filter; the totals are
      OMDb's, whatever the filter keeps. */
  lemma SearchResultsShape(req: SearchRequest, reply: HttpReply<SearchBody>)
    requires IsOk(reply.status) && reply.body.Some?
    requires reply.body.value.response != Some("False") && reply.body.value.search.Some?
    ensures var records := reply.body.value.search.value;
      var converted := seq(|records|, i requires 0 <= i < |records| => ConvertOmdbToMovie(records[i]));
      var r := SearchMovies(req, reply);
      && r.Success?
      && IsSubsequence(r.value.results, converted)
      && (FilterValue(req.genreId).None? ==> r.value.results == converted)
      && (FilterValue(req.genreId).Some? ==> forall m :: m in r.value.results ==> MatchesGenre(m, FilterValue(req.genreId).value))
      && r.value.totalResults == TotalResults(reply.body.value.totalResults)
      && r.value.totalPages == TotalPages(reply.body.value.totalResults)
  {
  }

  /** The genre filter never changes the totals: the same reply searched
      with and without a genre reports the same counts. */
  lemma TotalsIgnoreGenre(req: SearchRequest, reply: HttpReply<SearchBody>, genreId: Option<Num<int>>)
    requires SearchMovies(req, reply).Success?
    ensures var other := SearchMovies(req.(genreId := genreId), reply);
      && other.Success?
      && other.value.totalResults == SearchMovies(req, reply).value.totalResults
      && other.value.totalPages == SearchMovies(req, reply).value.totalPages
  {
  }

  // ---------------------------------------------------------------------
  // Trending

  /** `(page - 1) % popularSearches.length` with JavaScript's `%`. */
  function TrendingIndex(page: int): (i: int)
    ensures -|PopularSearches| < i < |PopularSearches|
    ensures page >= 1 ==> i >= 0
    ensures (page - 1 - i) % |PopularSearches| == 0
  {
    var i := JsRem(page - 1, |PopularSearches|);
    assert page - 1 - i == |PopularSearches| * JsQuot(page - 1, |PopularSearches|);
    i
  }

  /** The term searched for a trending page. Outside the list (a page below
      one) the array read is `undefined`, which the URL carries as the text
      `"undefined"`. */
  function TrendingTerm(page: int): (t: string)
    ensures t in PopularSearches || t == "undefined"
    ensures page >= 1 ==> t == PopularSearches[TrendingIndex(page)]
  {
    var i := TrendingIndex(page);
    if 0 <= i < |PopularSearches| then PopularSearches[i] else "undefined"
  }

  /** `getTrendingMovies(page)` delegates to `searchMovies(term, page)` with
      no year and no genre. */
  function TrendingRequest(page: int): (req: SearchRequest)
    ensures req.page == Num(page) && req.year == None && req.genreId == None
    ensures page >= 1 ==> req.query in PopularSearches
  {
    SearchRequest(TrendingTerm(page), Num(page), None, None)
  }

  /** A successful reply that carries a `Search` list. */
  predicate HasSearchList(reply: HttpReply<SearchBody>) {
    && IsOk(reply.status)
    && reply.body.Some?
    && reply.body.value.response != Some("False")
    && reply.body.value.search.Some?
  }

  function GetTrendingMovies(page: int, reply: HttpReply<SearchBody>): (r: Result<SearchMoviesResponse, ServiceError>)
    ensures !IsOk(reply.status) ==> r == Failure(ApiError(reply.status))
    ensures r.Success? ==> r.value.page == Num(page)
    ensures HasSearchList(reply) ==>
        && r.Success?
        && |r.value.results| == |reply.body.value.search.value|
        && (forall i :: 0 <= i < |r.value.results| ==>
              r.value.results[i] == ConvertOmdbToMovie(reply.body.value.search.value[i]))
  {
    SearchMovies(TrendingRequest(page), reply)
  }

  /** For pages from one on, the term index is `(page - 1) mod 10`, and
      pages ten apart search the same term. */
  lemma TrendingCycle(page: int)
    requires page >= 1
    ensures 0 <= TrendingIndex(page) < |PopularSearches|
    ensures TrendingIndex(page) == (page - 1) % |PopularSearches|
    ensures TrendingTerm(page) == PopularSearches[(page - 1) % |PopularSearches|]
    ensures TrendingTerm(page + |PopularSearches|) == TrendingTerm(page)
  {
    var a := page - 1;
    assert |PopularSearches| == 10;
    assert TrendingIndex(page) == a % 10;
    assert TrendingIndex(page + 10) == (a + 10) % 10;
    assert (a + 10) % 10 == a % 10 by {
      assert a + 10 == 10 * (a / 10 + 1) + a % 10;
    }
  }

  /** Below page one the index is negative unless `page - 1` is a multiple
      of ten, and the search is then for the text "undefined". */
  lemma TrendingBelowOne(page: int)
    requires page <= 0
    ensures TrendingTerm(page) == "undefined" <==> (page - 1) % |PopularSearches| != 0
  {
  }

  // ---------------------------------------------------------------------
  // getMovieDetails

  /** The detail reply: the converted movie plus the synthetic cast. */
  datatype MovieDetailsResponse = MovieDetailsResponse(movie: Movie, credits: Option<seq<CastMember>>)

  /** The query parameters of the detail request. */
  function DetailParams(movieId: Num<int>): (p: map<string, string>)
    ensures p.Keys == {"i", "plot"} && p["plot"] == "full"
    ensures movieId.Num? && movieId.value >= 0 ==> IdOf(Some(p["i"])) == movieId
  {
    var p := map["i" := FormatImdbId(movieId), "plot" := "full"];
    if movieId.Num? && movieId.value >= 0 then
      IdRoundTrip(movieId.value);
      p
    else p
  }

  /** `getMovieDetails`: a transport failure or an unreadable body throws, a
      "False" reply throws "Movie not found", anything else converts. */
  function GetMovieDetails(movieId: Num<int>, reply: HttpReply<DetailBody>): (r: Result<MovieDetailsResponse, ServiceError>)
    ensures !IsOk(reply.status) ==> r == Failure(ApiError(reply.status))
    ensures IsOk(reply.status) && reply.body.Some? && reply.body.value.response == Some("False") ==>
      r == Failure(MovieNotFound(reply.body.value.error))
    ensures r.Success? ==> r.value.credits.Some?
  {
    if !IsOk(reply.status) then Failure(ApiError(reply.status))
    else if reply.body.None? then Failure(InvalidJson)
    else
      var data := reply.body.value;
      if data.response == Some("False") then Failure(MovieNotFound(data.error))
      else Success(MovieDetailsResponse(ConvertOmdbToMovie(data.record), Some(FakeCast(data.record.actors))))
  }

  /** A detail lookup that OMDb answers with the requested record comes back
      under the requested id, with one cast entry per listed actor. */
  lemma DetailsEchoId(n: nat, reply: HttpReply<DetailBody>)
    requires IsOk(reply.status) && reply.body.Some? && reply.body.value.response != Some("False")
    requires reply.body.value.record.imdbId == Some(DetailParams(Num(n))["i"])
    ensures GetMovieDetails(Num(n), reply).Success?
    ensures GetMovieDetails(Num(n), reply).value.movie.id == Num(n)
    ensures GetMovieDetails(Num(n), reply).value.credits
      == Some(FakeCast(reply.body.value.record.actors))
  {
  }

  /** The "not found" scenario: OMDb's `Movie not found!` reply becomes the
      error message `Movie not found: Movie not found!`. */
  lemma DetailsNotFoundMessage(movieId: Num<int>, rec: OmdbRecord)
    ensures var r := GetMovieDetails(movieId, HttpReply(200, Some(DetailBody(Some("False"), Some("Movie not found!"), rec))));
      r.Failure? && Message(r.error) == Some("Movie not found: Movie not found!")
  {
    var r := GetMovieDetails(movieId, HttpReply(200, Some(DetailBody(Some("False"), Some("Movie not found!"), rec))));
    assert r == Failure(MovieNotFound(Some("Movie not found!")));
    assert "Movie not found: " + "Movie not found!" == "Movie not found: Movie not found!";
  }

  // ---------------------------------------------------------------------
  // getGenres and getYearRange

  /** `getGenres`: one entry per table id in `Object.entries` order, named
      after its first alias with the first letter upper-cased. */
  function GetGenres(): (r: seq<Genre>)
    ensures |r| == |GenreIds|
    ensures forall i :: 0 <= i < |r| ==> r[i].id == GenreIds[i] && r[i].id in GenreMap
    ensures forall i :: 0 <= i < |r| ==> ToLower(r[i].name) == GenreMap[r[i].id][0]
    ensures forall i :: 0 <= i < |r| ==> NamedAfter(r[i].name, GenreMap[r[i].id][0])
  {
    FirstAliases();
    seq(|GenreIds|, i requires 0 <= i < |GenreIds| => ListedGenre(GenreIds[i], GenreMap[GenreIds[i]]))
  }

  /** `name` is `alias` with its first character upper-cased and the rest
      as it is. */
  predicate NamedAfter(name: string, alias: string) {
    |name| == |alias| && (|alias| > 0 ==> name[0] == CharToUpper(alias[0]) && name[1..] == alias[1..])
  }

  /** The list entry for a table id with its aliases. */
  function ListedGenre(id: int, aliases: seq<string>): (g: Genre)
    requires |aliases| >= 1 && NoUpper(aliases[0])
    ensures g.id == id && ToLower(g.name) == aliases[0]
    ensures NamedAfter(g.name, aliases[0])
  {
    LowerCapitalize(aliases[0]);
    Genre(id, Capitalize(aliases[0]))
  }

  /** Every listed id has a first alias, in lower case. */
  lemma FirstAliases()
    ensures forall id :: id in GenreIds ==> id in GenreMap && |GenreMap[id]| >= 1 && NoUpper(GenreMap[id][0])
  {
    GenreIdsAreKeys();
    GenreAliasesLower();
    forall id | id in GenreIds
      ensures id in GenreMap && |GenreMap[id]| >= 1 && NoUpper(GenreMap[id][0])
    {
      assert GenreMap[id][0] in GenreMap[id];
    }
  }

  /** Choosing a genre from the list keeps exactly the movies that carry a
      genre of that name, in any letter case, or of another alias of it. */
  lemma ListedGenreMatches(i: nat, m: Movie, k: nat)
    requires i < |GenreIds| && k < |m.genres|
    requires ToLower(m.genres[k].name) == ToLower(GetGenres()[i].name)
    ensures MatchesGenre(m, GetGenres()[i].id)
  {
    assert ToLower(m.genres[k].name) in GenreMap[GetGenres()[i].id];
  }

  /** `getYearRange`, with the current year as a parameter: every year from
      the current one down to 1900, newest first. */
  method GetYearRange(currentYear: int) returns (years: seq<int>)
    ensures |years| == if currentYear >= 1900 then currentYear - 1899 else 0
    ensures forall i :: 0 <= i < |years| ==> years[i] == currentYear - i
    ensures forall i :: 0 <= i < |years| ==> 1900 <= years[i] <= currentYear
  {
    years := [];
    var year := currentYear;
    while year >= 1900
      invariant year <= currentYear
      invariant currentYear >= 1900 ==> year >= 1899
      invariant currentYear < 1900 ==> year == currentYear
      invariant |years| == currentYear - year
      invariant forall i :: 0 <= i < |years| ==> years[i] == currentYear - i
      invariant forall i :: 0 <= i < |years| ==> years[i] > year
    {
      years := years + [year];
      year := year - 1;
    }
  }
}

=== FILE: omdb_adapter.dfy ===
/** The OMDb response adapter of `movieService.ts`: one OMDb movie record,
    whose fields are all optional strings, becomes the application's `Movie`;
    the detail lookup's `tt`-prefixed identifier is rebuilt from a movie id;
    the flat actor list becomes a synthetic cast; a poster path becomes an
    image URL. */
module OmdbAdapter {
  import opened Wrappers
  import opened JsStrings
  import opened JsNumbers

  /** One OMDb movie record. Every field OMDb sends is a string and any of
      them may be missing (`None`). */
  datatype OmdbRecord = OmdbRecord(
    imdbId: Option<string>,
    title: Option<string>,
    poster: Option<string>,
    plot: Option<string>,
    released: Option<string>,
    year: Option<string>,
    imdbRating: Option<string>,
    imdbVotes: Option<string>,
    runtime: Option<string>,
    genre: Option<string>,
    actors: Option<string>)

  /** A genre of a movie; the ids the adapter hands out are positions
      (1-based), not the ids of the genre filter table. */
  datatype Genre = Genre(id: int, name: string)

  /** A cast entry; `profilePath` is JavaScript `null` when `None`. */
  datatype CastMember = CastMember(id: int, name: string, character: string, profilePath: Option<string>)

  /** The application's movie. `posterPath`/`backdropPath` of `None` stand for
      `null` or `undefined`; `voteAverage` is the OMDb rating doubled (a
      20-point scale). */
  datatype Movie = Movie(
    id: Num<int>,
    imdbId: Option<string>,
    title: string,
    posterPath: Option<string>,
    backdropPath: Option<string>,
    overview: string,
    releaseDate: string,
    voteAverage: Num<real>,
    voteCount: Num<int>,
    runtime: Num<int>,
    genres: seq<Genre>)

  /** The sentinel OMDb sends for a field it has no value for. */
  const NotAvailable: string := "N/A"

  /** The prefix of every IMDb identifier. */
  const ImdbPrefix: string := "tt"

  /** The digit count `getMovieDetails` pads a movie id to. */
  const ImdbDigits: nat := 7

  /** What the UI shows for a missing image. */
  const Placeholder: string := "/placeholder.svg"

  /** JavaScript truthiness of an optional string: present and non-empty. */
  predicate Present(f: Option<string>) {
    f.Some? && f.value != ""
  }

  /** `f || fallback` on an optional string. */
  function OrElse(f: Option<string>, fallback: string): (r: string)
    ensures Present(f) ==> r == f.value
    ensures !Present(f) ==> r == fallback
  {
    if Present(f) then f.value else fallback
  }

  /** The movie id: the IMDb identifier with its first `tt` removed, parsed
      as an integer; 0 when the identifier is missing. */
  function IdOf(imdbId: Option<string>): (r: Num<int>)
    ensures !Present(imdbId) ==> r == Num(0)
    ensures Present(imdbId) && |imdbId.value| >= 2 && imdbId.value[..2] == ImdbPrefix ==>
      r == ParseInt(imdbId.value[2..])
  {
    if Present(imdbId) then
      var s := imdbId.value;
      assert |s| >= 2 && s[..2] == ImdbPrefix ==> ReplaceFirst(s, ImdbPrefix, "") == s[2..] by {
        if |s| >= 2 && s[..2] == ImdbPrefix {
          StripPrefix(ImdbPrefix, s[2..]);
          assert s == ImdbPrefix + s[2..];
        }
      }
      ParseInt(ReplaceFirst(s, ImdbPrefix, ""))
    else Num(0)
  }

  /** The 10-point OMDb rating parsed and doubled; 0 when missing. */
  function VoteAverageOf(rating: Option<string>): (r: Num<real>)
    ensures !Present(rating) ==> r == Num(0.0)
    ensures Present(rating) ==> (r.NaN? <==> ParseFloat(rating.value).NaN?)
    ensures Present(rating) && r.Num? ==> r.value == 2.0 * ParseFloat(rating.value).value
  {
    if !Present(rating) then Num(0.0)
    else
      match ParseFloat(rating.value)
      case NaN => NaN
      case Num(r) => Num(r * 2.0)
  }

  /** The vote count with every thousands separator removed; 0 when missing. */
  function VoteCountOf(votes: Option<string>): (r: Num<int>)
    ensures !Present(votes) ==> r == Num(0)
    ensures Present(votes) && ',' !in votes.value ==> r == ParseInt(votes.value)
  {
    if Present(votes) then ParseInt(RemoveAll(votes.value, ',')) else Num(0)
  }

  /** The leading integer of the runtime text (`"142 min"`); 0 when missing. */
  function RuntimeOf(runtime: Option<string>): (r: Num<int>)
    ensures !Present(runtime) ==> r == Num(0)
    ensures Present(runtime) && IsDigit(runtime.value[0]) ==>
      r == Num(DigitsValue(LeadingDigits(runtime.value)))
  {
    if Present(runtime) then
      var s := runtime.value;
      assert IsDigit(s[0]) ==> ParseInt(s) == Num(DigitsValue(LeadingDigits(s))) by {
        if IsDigit(s[0]) {
          ParseIntUnsigned(s);
        }
      }
      ParseInt(s)
    else Num(0)
  }

  /** The names of a comma-separated list, split on every comma, trimmed and
      numbered from 1 by position; empty when the list is missing. */
  function NamesOf(list: Option<string>): (r: seq<string>)
    ensures |r| == 0 <==> !Present(list)
    ensures forall i :: 0 <= i < |r| ==> ',' !in r[i] && IsTrimmed(r[i])
  {
    if !Present(list) then []
    else
      var pieces := Split(list.value, ',');
      seq(|pieces|, i requires 0 <= i < |pieces| => TrimOfPiece(pieces[i]))
  }

  /** A trimmed list piece: still free of commas. */
  function TrimOfPiece(p: string): (r: string)
    requires ',' !in p
    ensures r == Trim(p) && ',' !in r && IsTrimmed(r)
  {
    TrimStartSub(p);
    Trim(p)
  }

  /** Trimming keeps only characters of the original. */
  lemma TrimStartSub(p: string)
    ensures forall c :: c in Trim(p) ==> c in p
  {
    var t := TrimStart(p);
    assert forall c :: c in TrimEnd(t) ==> c in t;
    assert forall c :: c in t ==> c in p;
  }

  function GenresOf(list: Option<string>): (r: seq<Genre>)
    ensures |r| == |NamesOf(list)|
    ensures forall i :: 0 <= i < |r| ==> r[i] == Genre(i + 1, NamesOf(list)[i])
  {
    var names := NamesOf(list);
    seq(|names|, i requires 0 <= i < |names| => Genre(i + 1, names[i]))
  }

  /** `convertOmdbToMovie`: never fails; every missing or malformed field
      degrades to a default. */
  function ConvertOmdbToMovie(rec: OmdbRecord): (m: Movie)
    ensures m.backdropPath == None
    ensures rec.poster == Some(NotAvailable) ==> m.posterPath == None
    ensures rec.poster != Some(NotAvailable) ==> m.posterPath == rec.poster
    ensures !Present(rec.imdbId) ==> m.id == Num(0)
    ensures !Present(rec.runtime) ==> m.runtime == Num(0)
    ensures !Present(rec.imdbVotes) ==> m.voteCount == Num(0)
    ensures |m.genres| == 0 <==> !Present(rec.genre)
    ensures forall i :: 0 <= i < |m.genres| ==>
      m.genres[i].id == i + 1 && ',' !in m.genres[i].name && IsTrimmed(m.genres[i].name)
  {
    Movie(
      id := IdOf(rec.imdbId),
      imdbId := rec.imdbId,
      title := OrElse(rec.title, ""),
      posterPath := if rec.poster != Some(NotAvailable) then rec.poster else None,
      backdropPath := None,
      overview := OrElse(rec.plot, ""),
      releaseDate := OrElse(rec.released, OrElse(rec.year, "")),
      voteAverage := VoteAverageOf(rec.imdbRating),
      voteCount := VoteCountOf(rec.imdbVotes),
      runtime := RuntimeOf(rec.runtime),
      genres := GenresOf(rec.genre))
  }

  /** The `i`-th synthetic cast entry. */
  function CastEntry(names: seq<string>, i: nat): CastMember
    requires i < |names|
  {
    CastMember(i + 1, names[i], "Character " + IntToString(i + 1), None)
  }

  /** The synthetic cast `getMovieDetails` builds from the flat actor list:
      one entry per comma-separated name, numbered from 1, with the
      placeholder character `"Character i"` and no profile image. */
  function FakeCast(actors: Option<string>): (r: seq<CastMember>)
    ensures |r| == |NamesOf(actors)|
    ensures |r| == 0 <==> !Present(actors)
    ensures forall i :: 0 <= i < |r| ==>
      && r[i].id == i + 1
      && r[i].name == NamesOf(actors)[i]
      && r[i].character == "Character " + IntToString(i + 1)
      && r[i].profilePath == None
  {
    var names := NamesOf(actors);
    seq(|names|, i requires 0 <= i < |names| => CastEntry(names, i))
  }

  /** The IMDb identifier `getMovieDetails` requests for a movie id: `tt`
      followed by the id's decimal text, zero-padded to seven characters. */
  function FormatImdbId(movieId: Num<int>): (r: string)
    ensures |r| >= 2 + ImdbDigits
    ensures r[..2] == ImdbPrefix
  {
    ImdbPrefix + PadStart(NumToString(movieId), ImdbDigits, '0')
  }

  /** `getImageUrl`: a missing or empty path gives the placeholder, any
      other path (a full URL or not) is used as it is. */
  function ImageUrl(path: Option<string>): (r: string)
    ensures Present(path) ==> r == path.value
    ensures !Present(path) ==> r == Placeholder
  {
    if !Present(path) then Placeholder
    else if |path.value| >= 4 && path.value[..4] == "http" then path.value
    else path.value
  }

  // ---------------------------------------------------------------------
  // Properties of the adapter

  /** Identifier round trip: formatting a non-negative id for the detail
      request and converting the reply's identifier back gives the id. */
  lemma IdRoundTrip(n: nat)
    ensures IdOf(Some(FormatImdbId(Num(n)))) == Num(n)
  {
    var digits := NatToString(n);
    assert NumToString(Num(n)) == digits;
    var padded := PadStart(digits, ImdbDigits, '0');
    var z := |padded| - |digits|;
    assert padded == seq(z, _ => '0') + digits;
    var id := FormatImdbId(Num(n));
    assert id == ImdbPrefix + padded;
    StripPrefix(ImdbPrefix, padded);
    assert ReplaceFirst(id, ImdbPrefix, "") == padded;
    ParseIntZeroPadded(z, n);
    assert ParseInt(padded) == Num(n);
  }

  /** Every IMDb identifier of `tt` and seven digits, leading zeros
      included, survives the trip to a movie id and back. */
  lemma ImdbIdReversible(d: string)
    requires |d| == ImdbDigits && IsDigits(d)
    ensures FormatImdbId(IdOf(Some(ImdbPrefix + d))) == ImdbPrefix + d
  {
    IdOfDigits(d);
    FormatDigits(d);
  }

  /** An identifier of `tt` and digits converts to the digits' value. */
  lemma IdOfDigits(d: string)
    requires |d| >= 1 && IsDigits(d)
    ensures IdOf(Some(ImdbPrefix + d)) == Num(DigitsValue(d))
  {
    assert (ImdbPrefix + d)[2..] == d + [];
    ParseIntLeading(d, []);
  }

  /** The value of seven digits formats back to those digits. */
  lemma FormatDigits(d: string)
    requires |d| == ImdbDigits && IsDigits(d)
    ensures FormatImdbId(Num(DigitsValue(d))) == ImdbPrefix + d
  {
    var n := DigitsValue(d);
    DigitsValueBound(d);
    PaddedDigits(n, ImdbDigits);
    DigitsInjective(PadStart(NatToString(n), ImdbDigits, '0'), d);
    assert NumToString(Num(n)) == NatToString(n);
  }

  /** A number below `10^k`, zero-padded to `k` places, is `k` digits
      worth that number. */
  lemma PaddedDigits(n: nat, k: nat)
    requires n < Pow10(k) && k >= 1
    ensures var p := PadStart(NatToString(n), k, '0');
      |p| == k && IsDigits(p) && DigitsValue(p) == n
  {
    var digits := NatToString(n);
    var padded := PadStart(digits, k, '0');
    assert |padded| == k by {
      NatToStringWidth(n, k);
    }
    var z := |padded| - |digits|;
    assert padded == seq(z, _ => '0') + digits;
    DigitsValueZeros(z, digits);
  }

  /** Ids below ten million format to exactly nine characters: `tt` and
      seven digits. */
  lemma FormatImdbIdWidth(n: nat)
    requires n < 10000000
    ensures |FormatImdbId(Num(n))| == 9
    ensures IsDigits(FormatImdbId(Num(n))[2..])
  {
    NatToStringWidth(n, ImdbDigits);
    var digits := NatToString(n);
    var padded := PadStart(digits, ImdbDigits, '0');
    assert padded == seq(|padded| - |digits|, _ => '0') + digits;
  }

  lemma {:induction false} NatToStringWidth(n: nat, k: nat)
    requires n < Pow10(k) && k >= 1
    ensures |NatToString(n)| <= k
  {
    if n >= 10 {
      NatToStringWidth(n / 10, k - 1);
    }
  }

  /** `tt0000123` is movie 123, and movie 123 is requested as `tt0000123`. */
  lemma ImdbIdExample()
    ensures FormatImdbId(Num(123)) == "tt0000123"
    ensures IdOf(Some("tt0000123")) == Num(123)
  {
    FormatImdbIdExample();
    IdRoundTrip(123);
  }

  lemma FormatImdbIdExample()
    ensures FormatImdbId(Num(123)) == "tt0000123"
  {
    assert NumToString(Num(123)) == "123" by {
      Text123();
    }
    assert PadStart("123", 7, '0') == "0000123";
  }

  lemma Text123()
    ensures NatToString(123) == "123"
  {
    assert NatToString(1) == "1";
    assert NatToString(12) == "12";
  }

  /** The poster rule seen through `getImageUrl`: the placeholder is shown
      exactly when OMDb sent no poster, an empty one, or `"N/A"`. */
  lemma PosterUrl(rec: OmdbRecord)
    ensures ImageUrl(ConvertOmdbToMovie(rec).posterPath)
      == if !Present(rec.poster) || rec.poster.value == NotAvailable then Placeholder else rec.poster.value
  {
  }

  /** A comma-separated list of trimmed, comma-free names converts to exactly
      those names, numbered 1..k in order. */
  lemma {:induction false} NamesOfJoin(parts: seq<string>)
    requires |parts| >= 1
    requires forall i :: 0 <= i < |parts| ==> ',' !in parts[i]
    requires Join(parts, ',') != ""
    ensures |NamesOf(Some(Join(parts, ',')))| == |parts|
    ensures forall i :: 0 <= i < |parts| ==> NamesOf(Some(Join(parts, ',')))[i] == Trim(parts[i])
  {
    SplitJoin(parts, ',');
  }

  /** A list in OMDb's `"Action, Adventure, Sci-Fi"` form — names without
      commas or surrounding blanks, each after the first preceded by one
      space — reads back as exactly those names. */
  lemma NamesOfList(list: Option<string>, names: seq<string>)
    requires |names| >= 1 && names[0] != ""
    requires forall i :: 0 <= i < |names| ==> ',' !in names[i] && IsTrimmed(names[i])
    requires list == Some(Join(ListParts(names), ','))
    ensures NamesOf(list) == names
  {
    var parts := ListParts(names);
    JoinStartsWith(parts, ',');
    NamesOfJoin(parts);
    forall i | 0 <= i < |names|
      ensures Trim(parts[i]) == names[i]
    {
      TrimOfTrimmed(names[i]);
      if i > 0 {
        TrimSkipsLeadingSpace(' ', names[i]);
      }
    }
  }

  /** Genres round trip: such a list gives back the names with ids 1..k in
      order. */
  lemma GenresOfList(rec: OmdbRecord, names: seq<string>)
    requires |names| >= 1 && names[0] != ""
    requires forall i :: 0 <= i < |names| ==> ',' !in names[i] && IsTrimmed(names[i])
    requires rec.genre == Some(Join(ListParts(names), ','))
    ensures ConvertOmdbToMovie(rec).genres == seq(|names|, i requires 0 <= i < |names| => Genre(i + 1, names[i]))
  {
    NamesOfList(rec.genre, names);
  }

  /** The pieces of OMDb's `", "`-separated list between its commas. */
  function ListParts(names: seq<string>): (parts: seq<string>)
    requires |names| >= 1
    requires forall i :: 0 <= i < |names| ==> ',' !in names[i]
    ensures |parts| == |names| && parts[0] == names[0]
    ensures forall i :: 1 <= i < |names| ==> parts[i] == " " + names[i]
    ensures forall i :: 0 <= i < |parts| ==> ',' !in parts[i]
  {
    seq(|names|, i requires 0 <= i < |names| => if i == 0 then names[0] else " " + names[i])
  }

  lemma JoinStartsWith(parts: seq<string>, c: char)
    requires |parts| >= 1
    ensures |Join(parts, c)| >= |parts[0]|
    ensures Join(parts, c)[..|parts[0]|] == parts[0]
  {
  }

  /** The synthetic cast of a list of actor names in OMDb's form. */
  lemma FakeCastOfList(actors: Option<string>, names: seq<string>)
    requires |names| >= 1 && names[0] != ""
    requires forall i :: 0 <= i < |names| ==> ',' !in names[i] && IsTrimmed(names[i])
    requires actors == Some(Join(ListParts(names), ','))
    ensures |FakeCast(actors)| == |names|
    ensures forall i :: 0 <= i < |names| ==>
      FakeCast(actors)[i] == CastMember(i + 1, names[i], "Character " + IntToString(i + 1), None)
  {
    NamesOfList(actors, names);
  }

  /** Vote counts: digit groups separated by commas (`"1,234,567"`) count as
      the digits laid end to end. */
  lemma VoteCountOfGroups(groups: seq<string>)
    requires |groups| >= 1
    requires forall i :: 0 <= i < |groups| ==> |groups[i]| >= 1 && IsDigits(groups[i])
    ensures IsDigits(Concat(groups))
    ensures VoteCountOf(Some(Join(groups, ','))) == Num(DigitsValue(Concat(groups)))
  {
    forall i | 0 <= i < |groups| ensures ',' !in groups[i] {
      assert !IsDigit(',');
    }
    RemoveAllJoin(groups, ',');
    ConcatDigits(groups);
    JoinStartsWith(groups, ',');
    ParseIntLeading(Concat(groups), []);
    assert Concat(groups) + [] == Concat(groups);
  }

  lemma {:induction false} ConcatDigits(groups: seq<string>)
    requires |groups| >= 1
    requires forall i :: 0 <= i < |groups| ==> |groups[i]| >= 1 && IsDigits(groups[i])
    ensures |Concat(groups)| >= 1 && IsDigits(Concat(groups))
  {
    if |groups| > 1 {
      ConcatDigits(groups[1..]);
    } else {
      assert Concat(groups) == groups[0] + Concat([]);
    }
  }

  /** Runtimes: `"142 min"` is 142 minutes — the leading integer is read and
      the unit ignored. */
  lemma RuntimeLeading(d: string, unit: string)
    requires |d| >= 1 && IsDigits(d)
    requires unit == [] || !IsDigit(unit[0])
    ensures RuntimeOf(Some(d + unit)) == Num(DigitsValue(d))
  {
    ParseIntLeading(d, unit);
  }

  /** A record without any field converts to the all-defaults movie. */
  lemma EmptyRecord()
    ensures ConvertOmdbToMovie(OmdbRecord(None, None, None, None, None, None, None, None, None, None, None))
      == Movie(Num(0), None, "", None, None, "", "", Num(0.0), Num(0), Num(0), [])
  {
  }
}

=== FILE: pagination.dfy ===
/** The `Pagination` component: which page buttons it shows around the
    current page, the first/last shortcuts with their ellipses, and the
    targets and disabled flags of the first/previous/next/last buttons. */
module Pagination {
  import opened Wrappers

  /** At most five numbered page buttons are shown at a time. */
  const MaxPagesToShow: int := 5

  function Max(a: int, b: int): int { if a >= b then a else b }
  function Min(a: int, b: int): int { if a <= b then a else b }

  /** The run of numbered buttons, `startPage..endPage` inclusive. */
  datatype Window = Window(start: int, end: int)

  /** Up to two pages either side of the current one, shifted left when the
      run would pass the last page, and never before page 1. */
  function PageWindow(cur: int, total: int): (w: Window)
    ensures w.start >= 1 && w.end <= total
    ensures w.end - w.start + 1 <= MaxPagesToShow
    ensures total >= 1 ==> w.start <= w.end
    ensures 1 <= cur <= total ==>
      w.start <= cur <= w.end && w.end - w.start + 1 == Min(MaxPagesToShow, total)
    ensures 1 <= cur <= total ==>
      w.start == Max(1, Min(cur - 2, total - MaxPagesToShow + 1)) && w.end == Min(total, w.start + MaxPagesToShow - 1)
  {
    var start := Max(1, cur - 2);
    var end := Min(total, start + MaxPagesToShow - 1);
    if end - start + 1 < MaxPagesToShow then Window(Max(1, end - MaxPagesToShow + 1), end)
    else Window(start, end)
  }

  /** The page numbers `startPage, startPage + 1, ..., endPage`. */
  function PageNumbers(w: Window): (r: seq<int>)
    ensures |r| == if w.end >= w.start then w.end - w.start + 1 else 0
    ensures forall i :: 0 <= i < |r| ==> r[i] == w.start + i
  {
    if w.end < w.start then [] else seq(w.end - w.start + 1, i => w.start + i)
  }

  /** A first/previous/next/last button: where it leads and whether it is
      disabled. */
  datatype NavButton = NavButton(target: int, disabled: bool)

  /** A numbered button; `current` selects the highlighted variant. */
  datatype PageButton = PageButton(page: int, current: bool)

  /** The first- or last-page shortcut and whether an ellipsis separates it
      from the run of numbered buttons. */
  datatype Shortcut = Shortcut(button: PageButton, ellipsis: bool)

  /** Everything the component renders, left to right. */
  datatype View = View(
    first: NavButton,
    previous: NavButton,
    leading: Option<Shortcut>,
    pages: seq<PageButton>,
    trailing: Option<Shortcut>,
    next: NavButton,
    last: NavButton)

  /** The component: nothing at all for a single page or none. */
  function Render(cur: int, total: int): (v: Option<View>)
    ensures v.None? <==> total <= 1
    ensures v.Some? ==> |v.value.pages| == |PageNumbers(PageWindow(cur, total))|
    ensures v.Some? ==> forall i :: 0 <= i < |v.value.pages| ==>
      v.value.pages[i].page == PageNumbers(PageWindow(cur, total))[i]
  {
    if total <= 1 then None
    else
      var w := PageWindow(cur, total);
      var numbers := PageNumbers(w);
      Some(View(
        first := NavButton(1, cur == 1),
        previous := NavButton(Max(1, cur - 1), cur == 1),
        leading := if w.start > 1 then Some(Shortcut(PageButton(1, cur == 1), w.start > 2)) else None,
        pages := seq(|numbers|, i requires 0 <= i < |numbers| => PageButton(numbers[i], numbers[i] == cur)),
        trailing := if w.end < total then Some(Shortcut(PageButton(total, cur == total), w.end < total - 1)) else None,
        next := NavButton(Min(total, cur + 1), cur == total),
        last := NavButton(total, cur == total)))
  }

  /** The numbered buttons form a non-empty ascending run of consecutive
      pages, all between 1 and the last page. */
  lemma PagesContiguous(cur: int, total: int)
    requires total > 1
    ensures var ps := Render(cur, total).value.pages;
      && |ps| >= 1
      && (forall i :: 0 < i < |ps| ==> ps[i].page == ps[i - 1].page + 1)
      && (forall i :: 0 <= i < |ps| ==> 1 <= ps[i].page <= total)
  {
  }

  /** At most five numbered buttons; exactly `min(5, totalPages)` of them when
      the current page is a real page, and then it is among them and is the
      only highlighted one. */
  lemma PagesCount(cur: int, total: int)
    requires total > 1
    ensures |Render(cur, total).value.pages| <= MaxPagesToShow
    ensures 1 <= cur <= total ==> |Render(cur, total).value.pages| == Min(MaxPagesToShow, total)
    ensures 1 <= cur <= total ==>
      exists i :: 0 <= i < |Render(cur, total).value.pages| && Render(cur, total).value.pages[i] == PageButton(cur, true)
    ensures forall i :: 0 <= i < |Render(cur, total).value.pages| ==>
      (Render(cur, total).value.pages[i].current <==> Render(cur, total).value.pages[i].page == cur)
  {
    var w := PageWindow(cur, total);
    if 1 <= cur <= total {
      var ps := Render(cur, total).value.pages;
      assert ps[cur - w.start] == PageButton(cur, true);
    }
  }

  /** From a real page, previous and next stay on real pages, move by one
      page when they can, and are disabled exactly when they would not move. */
  lemma NavTargets(cur: int, total: int)
    requires 1 <= cur <= total && total > 1
    ensures var v := Render(cur, total).value;
      && 1 <= v.previous.target <= total
      && 1 <= v.next.target <= total
      && (cur > 1 ==> v.previous.target == cur - 1)
      && (cur < total ==> v.next.target == cur + 1)
      && (v.previous.disabled <==> v.previous.target == cur)
      && (v.next.disabled <==> v.next.target == cur)
      && (v.first.disabled <==> v.first.target == cur)
      && (v.last.disabled <==> v.last.target == cur)
  {
  }

  /** The page shortcuts appear exactly when the run of numbered buttons
      misses that page, and an ellipsis exactly when pages are hidden between
      the shortcut and the run. */
  lemma Shortcuts(cur: int, total: int)
    requires total > 1
    ensures var v := Render(cur, total).value;
      && (v.leading.Some? <==> v.pages[0].page > 1)
      && (v.leading.Some? ==> v.leading.value.button.page == 1 && (v.leading.value.ellipsis <==> v.pages[0].page > 2))
      && (v.trailing.Some? <==> v.pages[|v.pages| - 1].page < total)
      && (v.trailing.Some? ==>
            && v.trailing.value.button.page == total
            && (v.trailing.value.ellipsis <==> v.pages[|v.pages| - 1].page < total - 1))
  {
    PagesContiguous(cur, total);
  }

  /** The page numbers shown, shortcuts included, left to right. */
  function ShownPages(v: View): seq<int> {
    (if v.leading.Some? then [v.leading.value.button.page] else [])
    + seq(|v.pages|, i requires 0 <= i < |v.pages| => v.pages[i].page)
    + (if v.trailing.Some? then [v.trailing.value.button.page] else [])
  }

  /** The pages shown run strictly upwards from page 1 to the last page, so
      both ends are always one click away, and every page that is not shown
      lies behind an ellipsis. */
  lemma ShownPagesCover(cur: int, total: int)
    requires total > 1
    ensures var v := Render(cur, total).value; var s := ShownPages(v);
      && |s| >= 2 && s[0] == 1 && s[|s| - 1] == total
      && (forall i, j :: 0 <= i < j < |s| ==> s[i] < s[j])
      && (forall p :: 1 <= p <= total && p !in s ==>
            (v.leading.Some? && v.leading.value.ellipsis && p < v.pages[0].page)
            || (v.trailing.Some? && v.trailing.value.ellipsis && p > v.pages[|v.pages| - 1].page))
  {
    ShownPagesOrdered(cur, total);
    ShownPagesHidden(cur, total);
  }

  lemma ShownPagesOrdered(cur: int, total: int)
    requires total > 1
    ensures var s := ShownPages(Render(cur, total).value);
      && |s| >= 2 && s[0] == 1 && s[|s| - 1] == total
      && (forall i, j :: 0 <= i < j < |s| ==> s[i] < s[j])
  {
    ShownPagesFormula(cur, total);
  }

  lemma ShownPagesHidden(cur: int, total: int)
    requires total > 1
    ensures var v := Render(cur, total).value;
      forall p :: 1 <= p <= total && p !in ShownPages(v) ==>
        (v.leading.Some? && v.leading.value.ellipsis && p < v.pages[0].page)
        || (v.trailing.Some? && v.trailing.value.ellipsis && p > v.pages[|v.pages| - 1].page)
  {
    var v := Render(cur, total).value;
    var w := PageWindow(cur, total);
    PagesContiguous(cur, total);
    Shortcuts(cur, total);
    var s := ShownPages(v);
    var lead := if w.start > 1 then 1 else 0;
    ShownPagesFormula(cur, total);
    forall k | w.start <= k <= w.end
      ensures k in s
    {
      assert s[lead + (k - w.start)] == k;
    }
  }

  /** The shown pages, element by element: page 1 if the leading shortcut is
      there, then the window, then the last page if the trailing shortcut is
      there. */
  lemma ShownPagesFormula(cur: int, total: int)
    requires total > 1
    ensures var v := Render(cur, total).value; var w := PageWindow(cur, total);
      var lead := if w.start > 1 then 1 else 0;
      var trail := if w.end < total then 1 else 0;
      var n := lead + (w.end - w.start + 1) + trail;
      && |ShownPages(v)| == n
      && forall i :: 0 <= i < n ==>
           ShownPages(v)[i] == if i < lead then 1 else if i >= n - trail then total else w.start + i - lead
  {
    var v := Render(cur, total).value;
    var w := PageWindow(cur, total);
    var mid := seq(|v.pages|, i requires 0 <= i < |v.pages| => v.pages[i].page);
    assert mid == PageNumbers(w);
  }
}

=== FILE: search_results.dfy ===
/** The `SearchResults` page's URL state: the search parameters `query`,
    `page`, `year` and `genre` as a key-to-text map, what the page reads from
    them, the search it issues, and how a page change and a filter change
    rewrite them. */
module SearchResults {
  import opened Wrappers
  import opened JsNumbers
  import opened MovieService
  import MovieFilters
  import Pagination

  /** The URL search parameters, one value per key. */
  type Params = map<string, string>

  /** The page count shown is capped at 500. */
  const MaxTotalPages: int := 500

  /** `searchParams.get(key)` is truthy: the key is there with a non-empty
      value. */
  predicate HasValue(p: Params, key: string) {
    key in p && p[key] != ""
  }

  /** `searchParams.get("query") || ""`. */
  function QueryOf(p: Params): (q: string)
    ensures HasValue(p, "query") ==> q == p["query"]
    ensures !HasValue(p, "query") ==> q == ""
  {
    if "query" in p then p["query"] else ""
  }

  /** The current page: the parsed `page` value, 1 when it is missing. */
  function CurrentPage(p: Params): Num<int> {
    if HasValue(p, "page") then ParseInt(p["page"]) else Num(1)
  }

  /** A filter parameter: its parsed value, `undefined` when missing. */
  function FilterOf(p: Params, key: string): Option<Num<int>> {
    if HasValue(p, key) then Some(ParseInt(p[key])) else None
  }

  /** The year filter. */
  function YearOf(p: Params): Option<Num<int>> {
    FilterOf(p, "year")
  }

  /** The genre filter. */
  function GenreOf(p: Params): Option<Num<int>> {
    FilterOf(p, "genre")
  }

  /** Absent parameters mean page 1 and no filters. */
  lemma Defaults(p: Params)
    requires "page" !in p && "year" !in p && "genre" !in p
    ensures CurrentPage(p) == Num(1)
    ensures FilterValue(YearOf(p)).None? && FilterValue(GenreOf(p)).None?
  {
  }

  /** A value written as the text of an integer reads back as that integer,
      as the page number or as a filter. */
  lemma UrlStateRead(p: Params, k: int)
    ensures "page" in p && p["page"] == IntToString(k) ==> CurrentPage(p) == Num(k)
    ensures "year" in p && p["year"] == IntToString(k) ==> YearOf(p) == Some(Num(k))
    ensures "genre" in p && p["genre"] == IntToString(k) ==> GenreOf(p) == Some(Num(k))
  {
    ParseIntToString(k);
  }

  /** The search the page issues for its URL state; none for an empty query. */
  function SearchFor(p: Params): (r: Option<SearchRequest>)
    ensures r.None? <==> QueryOf(p) == ""
  {
    if QueryOf(p) == "" then None
    else Some(SearchRequest(QueryOf(p), CurrentPage(p), YearOf(p), GenreOf(p)))
  }

  /** `handlePageChange`: only the `page` key is set; every other key keeps
      its value, and the page read back is the page chosen. */
  function PageChange(p: Params, page: int): (q: Params)
    ensures q.Keys == p.Keys + {"page"}
    ensures forall k :: k in p && k != "page" ==> q[k] == p[k]
    ensures CurrentPage(q) == Num(page)
    ensures QueryOf(q) == QueryOf(p) && YearOf(q) == YearOf(p) && GenreOf(q) == GenreOf(p)
  {
    var q := p["page" := IntToString(page)];
    assert CurrentPage(q) == Num(page) by { ParseIntToString(page); }
    SamePageless(p, q);
    q
  }

  /** Maps that agree on every key but `page` hold the same query and
      filters. */
  lemma SamePageless(p: Params, q: Params)
    requires forall k :: k != "page" ==> (k in p <==> k in q)
    requires forall k :: k != "page" && k in p ==> p[k] == q[k]
    ensures QueryOf(q) == QueryOf(p) && YearOf(q) == YearOf(p) && GenreOf(q) == GenreOf(p)
  {
    assert "query" != "page" && "year" != "page" && "genre" != "page";
  }

  /** `handleFilterChange`: `page` is dropped, and `year`/`genre` hold the
      chosen values when they are set and non-zero, and are deleted
      otherwise. Nothing else changes. */
  function FilterChange(p: Params, year: Option<Num<int>>, genreId: Option<Num<int>>): (q: Params)
    ensures "page" !in q && CurrentPage(q) == Num(1)
    ensures forall k :: k in p && k != "page" && k != "year" && k != "genre" ==> k in q && q[k] == p[k]
    ensures forall k :: k in q ==> k in p || k == "year" || k == "genre"
    ensures QueryOf(q) == QueryOf(p)
    ensures "year" in q <==> FilterValue(year).Some?
    ensures "genre" in q <==> FilterValue(genreId).Some?
    ensures FilterValue(YearOf(q)) == FilterValue(year)
    ensures FilterValue(GenreOf(q)) == FilterValue(genreId)
    ensures FilterValue(year).Some? ==> YearOf(q) == Some(Num(FilterValue(year).value))
    ensures FilterValue(genreId).Some? ==> GenreOf(q) == Some(Num(FilterValue(genreId).value))
    ensures FilterValue(year).Some? ==> q["year"] == IntToString(FilterValue(year).value)
    ensures FilterValue(genreId).Some? ==> q["genre"] == IntToString(FilterValue(genreId).value)
  {
    FilterKeys(p, year, genreId);
    FilterKeeps(p, year, genreId);
    FilterAddsOnly(p, year, genreId);
    FilterReads(p, year, genreId);
    FilterTexts(p, year, genreId);
    SetFilters(p, year, genreId)
  }

  /** The parameters of `handleFilterChange`, built step by step. */
  function SetFilters(p: Params, year: Option<Num<int>>, genreId: Option<Num<int>>): Params {
    SetOrDelete(SetOrDelete(p - {"page"}, "year", year), "genre", genreId)
  }

  /** Which of `page`, `year` and `genre` a filter change leaves in place. */
  lemma FilterKeys(p: Params, year: Option<Num<int>>, genreId: Option<Num<int>>)
    ensures var q := SetFilters(p, year, genreId);
      && "page" !in q
      && ("year" in q <==> FilterValue(year).Some?)
      && ("genre" in q <==> FilterValue(genreId).Some?)
  {
    var q1 := SetOrDelete(p - {"page"}, "year", year);
    assert "year" != "genre" && "page" !in q1;
  }

  /** A filter change keeps every other key with its text. */
  lemma FilterKeeps(p: Params, year: Option<Num<int>>, genreId: Option<Num<int>>)
    ensures var q := SetFilters(p, year, genreId);
      forall k :: k in p && k != "page" && k != "year" && k != "genre" ==> k in q && q[k] == p[k]
  {
    var q0 := p - {"page"};
    var q1 := SetOrDelete(q0, "year", year);
    assert forall k :: k in p && k != "page" && k != "year" ==> k in q1 && q1[k] == p[k];
  }

  /** A filter change adds no key besides `year` and `genre`. */
  lemma FilterAddsOnly(p: Params, year: Option<Num<int>>, genreId: Option<Num<int>>)
    ensures var q := SetFilters(p, year, genreId);
      forall k :: k in q ==> k in p || k == "year" || k == "genre"
  {
    var q1 := SetOrDelete(p - {"page"}, "year", year);
    assert forall k :: k in q1 ==> k in p || k == "year";
  }

  /** The texts a filter change writes: each set filter's `toString`. */
  lemma FilterTexts(p: Params, year: Option<Num<int>>, genreId: Option<Num<int>>)
    ensures var q := SetFilters(p, year, genreId);
      && (FilterValue(year).Some? ==> "year" in q && q["year"] == IntToString(FilterValue(year).value))
      && (FilterValue(genreId).Some? ==> "genre" in q && q["genre"] == IntToString(FilterValue(genreId).value))
  {
    var q1 := SetOrDelete(p - {"page"}, "year", year);
    assert "year" != "genre";
    assert FilterValue(year).Some? ==> q1["year"] == IntToString(FilterValue(year).value);
  }

  /** What the page reads back after a filter change. */
  lemma FilterReads(p: Params, year: Option<Num<int>>, genreId: Option<Num<int>>)
    ensures var q := SetFilters(p, year, genreId);
      && CurrentPage(q) == Num(1)
      && QueryOf(q) == QueryOf(p)
      && FilterValue(YearOf(q)) == FilterValue(year)
      && FilterValue(GenreOf(q)) == FilterValue(genreId)
      && (FilterValue(year).Some? ==> YearOf(q) == Some(Num(FilterValue(year).value)))
      && (FilterValue(genreId).Some? ==> GenreOf(q) == Some(Num(FilterValue(genreId).value)))
  {
    var q1 := SetOrDelete(p - {"page"}, "year", year);
    var q := SetOrDelete(q1, "genre", genreId);
    assert "year" != "genre" && "query" != "page" && "query" != "year" && "query" != "genre";
    ReadBackFilter(q, "year", year);
    ReadBackFilter(q, "genre", genreId);
  }

  /** A key that holds exactly the text of a filter's value reads back as
      that filter. */
  lemma ReadBackFilter(q: Params, key: string, x: Option<Num<int>>)
    requires key in q <==> FilterValue(x).Some?
    requires FilterValue(x).Some? ==> HasValue(q, key) && ParseInt(q[key]) == Num(FilterValue(x).value)
    ensures FilterValue(FilterOf(q, key)) == FilterValue(x)
    ensures FilterValue(x).Some? ==> FilterOf(q, key) == Some(Num(FilterValue(x).value))
  {
  }

  /** Sets `key` to the decimal text of a truthy number, deletes it
      otherwise; the value read back is that number. */
  function SetOrDelete(p: Params, key: string, x: Option<Num<int>>): (q: Params)
    ensures q.Keys == if FilterValue(x).Some? then p.Keys + {key} else p.Keys - {key}
    ensures forall k :: k in p && k != key ==> q[k] == p[k]
    ensures FilterValue(x).Some? ==> key in q && q[key] == IntToString(FilterValue(x).value)
    ensures FilterValue(x).Some? ==> HasValue(q, key) && ParseInt(q[key]) == Num(FilterValue(x).value)
  {
    match FilterValue(x)
    case None => p - {key}
    case Some(v) =>
      var q := p[key := IntToString(v)];
      assert HasValue(q, key) && ParseInt(q[key]) == Num(v) by {
        ParseIntToString(v);
      }
      q
  }

  /** `Math.min(data.total_pages, 500)`. */
  function DisplayedTotalPages(totalPages: int): (n: int)
    ensures n <= MaxTotalPages && n <= totalPages
    ensures n == totalPages || n == MaxTotalPages
  {
    Pagination.Min(totalPages, MaxTotalPages)
  }

  /** The pagination under a search never offers a page past OMDb's page
      count or past page 500, and it is absent when there is one page. */
  lemma PaginationWithinCap(p: Params, totalPages: int)
    requires CurrentPage(p).Num?
    ensures var v := Pagination.Render(CurrentPage(p).value, DisplayedTotalPages(totalPages));
      && (totalPages <= 1 ==> v.None?)
      && (v.Some? ==> forall i :: 0 <= i < |v.value.pages| ==>
            1 <= v.value.pages[i].page <= totalPages && v.value.pages[i].page <= MaxTotalPages)
  {
    var total := DisplayedTotalPages(totalPages);
    if total > 1 {
      Pagination.PagesContiguous(CurrentPage(p).value, total);
    }
  }

  /** Clicking a page button issues the same search for that page. */
  lemma PageButtonSearch(p: Params, total: int, i: nat)
    requires CurrentPage(p).Num? && QueryOf(p) != ""
    requires Pagination.Render(CurrentPage(p).value, total).Some?
    requires i < |Pagination.Render(CurrentPage(p).value, total).value.pages|
    ensures var target := Pagination.Render(CurrentPage(p).value, total).value.pages[i].page;
      SearchFor(PageChange(p, target))
        == Some(SearchRequest(QueryOf(p), Num(target), YearOf(p), GenreOf(p)))
  {
  }

  /** The filter component's held selection agrees with the URL's filters.
      The component copies its props into state only when it mounts, and
      the page stays mounted while a navigation search or the browser
      history rewrites the URL, so the two can drift apart. */
  predicate InSync(p: Params, held: MovieFilters.Filters) {
    && FilterValue(YearOf(p)) == FilterValue(held.year)
    && FilterValue(GenreOf(p)) == FilterValue(held.genreId)
  }

  /** A year picked in the filter reaches the URL: the page restarts at 1,
      the URL's year filter is the picked year, the genre filter is the one
      the component holds, and the select still shows the pick when the page
      is rebuilt from the URL. Afterwards URL and component agree; the URL's
      own genre is kept only when they agreed before. */
  lemma YearPickReachesUrl(p: Params, held: MovieFilters.Filters, y: int)
    requires y != 0
    ensures var c := MovieFilters.YearChange(held, IntToString(y));
      var q := FilterChange(p, c.reported.year, c.reported.genreId);
      && CurrentPage(q) == Num(1)
      && QueryOf(q) == QueryOf(p)
      && YearOf(q) == Some(Num(y))
      && FilterValue(GenreOf(q)) == FilterValue(held.genreId)
      && MovieFilters.SelectValue(YearOf(q)) == IntToString(y)
      && InSync(q, c.state)
      && (InSync(p, held) ==> FilterValue(GenreOf(q)) == FilterValue(GenreOf(p)))
  {
    var c := MovieFilters.YearChange(held, IntToString(y));
    assert c.reported.year == Some(Num(y)) by {
      MovieFilters.ParseSelectOfInt(y);
    }
    var q := FilterChange(p, c.reported.year, c.reported.genreId);
    assert YearOf(q) == Some(Num(y));
    MovieFilters.SelectShowsNumber(y);
  }

  /** Picking "all" years removes the `year` key; the genre filter is the
      one the component holds. */
  lemma AllYearsClearsUrl(p: Params, held: MovieFilters.Filters)
    ensures var c := MovieFilters.YearChange(held, MovieFilters.AllValue);
      var q := FilterChange(p, c.reported.year, c.reported.genreId);
      && "year" !in q
      && "page" !in q
      && MovieFilters.SelectValue(YearOf(q)) == MovieFilters.AllValue
      && FilterValue(GenreOf(q)) == FilterValue(held.genreId)
      && InSync(q, c.state)
      && (InSync(p, held) ==> FilterValue(GenreOf(q)) == FilterValue(GenreOf(p)))
  {
  }

  /** A genre picked in the filter reaches the URL; the year filter is the
      one the component holds. */
  lemma GenrePickReachesUrl(p: Params, held: MovieFilters.Filters, g: int)
    requires g != 0
    ensures var c := MovieFilters.GenreChange(held, IntToString(g));
      var q := FilterChange(p, c.reported.year, c.reported.genreId);
      && CurrentPage(q) == Num(1)
      && QueryOf(q) == QueryOf(p)
      && GenreOf(q) == Some(Num(g))
      && FilterValue(YearOf(q)) == FilterValue(held.year)
      && InSync(q, c.state)
      && (InSync(p, held) ==> FilterValue(YearOf(q)) == FilterValue(YearOf(p)))
  {
    var c := MovieFilters.GenreChange(held, IntToString(g));
    assert c.reported.genreId == Some(Num(g)) by {
      MovieFilters.ParseSelectOfInt(g);
    }
  }

  /** The filter state read at mount agrees with the URL, and a page change
      keeps the agreement. */
  lemma MountInSync(p: Params, page: int)
    ensures InSync(p, MovieFilters.Initial(YearOf(p), GenreOf(p)))
    ensures InSync(PageChange(p, page), MovieFilters.Initial(YearOf(p), GenreOf(p)))
  {
  }

  /** A stale selection resurfaces: after `/search?query=a&year=2000` the
      component holds year 2000; a navigation search for "b" leaves the page
      mounted with no year in the URL, and picking genre 28 then writes year
      2000 back. */
  lemma StaleYearReturns()
    ensures var first := map["query" := "a", "year" := IntToString(2000)];
      var held := MovieFilters.Initial(YearOf(first), GenreOf(first));
      var next := map["query" := "b"];
      var c := MovieFilters.GenreChange(held, IntToString(28));
      var q := FilterChange(next, c.reported.year, c.reported.genreId);
      && YearOf(next) == None
      && !InSync(next, held)
      && YearOf(q) == Some(Num(2000))
      && GenreOf(q) == Some(Num(28))
  {
    var first := map["query" := "a", "year" := IntToString(2000)];
    assert YearOf(first) == Some(Num(2000)) by {
      assert "year" in first && first["year"] == IntToString(2000);
      UrlStateRead(first, 2000);
    }
    var held := MovieFilters.Initial(YearOf(first), GenreOf(first));
    var next: Params := map["query" := "b"];
    assert YearOf(next) == None by {
      assert "year" !in next;
    }
    GenrePickReachesUrl(next, held, 28);
  }
}

=== FILE: wrappers.dfy ===
/** The optional-value and result types shared by every module of the model.
    An absent JSON field, an absent URL key and a JavaScript
    `null`/`undefined` are all written `None`; an operation that throws
    returns `Failure`. */
module Wrappers {

  datatype Option<+T> = None | Some(value: T) {

    /** The encapsulated value, or `default` when there is none. */
    function GetOr(default: T): T {
      match this
      case Some(v) => v
      case None => default
    }
  }

  /** The outcome of an operation that either returns a value or throws. */
  datatype Result<+T, +E> = Success(value: T) | Failure(error: E)
}
